=== FILE: README.md ===
# NeuroShield AI: the logic of its state machines and request handlers

NeuroShield AI is a two-tier web application. A React single-page app walks a
user through a short neurological screening and shows a risk dashboard. Three
backends authenticate users, send uploaded media to an ML inference service and
store the risk scores it returns: an Express server, a FastAPI server backed by
Firebase, and the FastAPI ML service.

Most of the code is page markup and plumbing for networks and databases. This
project models the parts that hold logic, as pure functions over immutable
state. Outside services (bcrypt, JWT, Firebase, Prisma, Mongo, the ML service)
are function parameters or abstract maps and sequences.

| module (file) | what it models |
|---|---|
| `AssessmentTool` (assessment_tool.dfy) | The five-stage assessment screen. It has a one-second progress interval, measured in exact hundredths of a percent (333 per tick). Progress clamps at 100. After a 3-second delay the screen shows a hard-coded results page. A clock counts the timer time since the recording started. |
| `Dashboard` (dashboard.dfy) | The three-way risk split at 0.3 and 0.6, and the four places that display it. Also the dash offset of the score ring, and the colour the trend bars are painted. |
| `AuthContext` (auth_context.dfy) | The client's `{user, token}` state. It is kept in step with `localStorage` through mount, login, register and logout. |
| `AuthRoutes` (auth_routes.dfy) | Express `/register` and `/login`. |
| `SessionRoutes` (session_routes.dfy) | Express session list (the caller's sessions, newest first) and session create. |
| `UploadRoute` (upload_route.dfy) | The Express upload handler. Three ML stages run in order and stop at the first failure, then the session is stored and the temporary files are deleted. |
| `BearerGate` (bearer_gate.dfy) | The FastAPI backend's `get_current_user` check of `Authorization: Bearer` (section 2.1 of RFC 6750). Also the `/auth/me` projection. |
| `MlService` (ml_service.dfy) | The ML service's register, login, bearer scheme check, token claim checks (the `exp` claim is section 4.1.4 of RFC 7519), current-user, and assessment create/list handlers. |
| `Common`, `Json`, `Ordering` | Option/Result; JavaScript values with truthiness and property access; the shared "matching records, newest first" query with its insertion sort. |

Three facts about the assessment screen shape its model:
- The screen only simulates a recording. It captures no media, has no
  countdown and uploads nothing.
- Progress is first set to exactly 100 on tick 32. Tick 30 gives 99.9 and
  tick 31 already overshoots to 103.23; tick 32 clamps to 100 and enters
  PROCESSING.
- The results page is constant.

## Model

| member | source | states |
|---|---|---|
| AssessmentTool.Initial | src/components/assessment/AssessmentTool.tsx:16-17 | The first render is stage INTRO with progress 0. No interval is armed and no results timeout is pending. |
| AssessmentTool.StartRecordingEffect | src/components/assessment/AssessmentTool.tsx:20-23 | Starting a recording enters RECORDING with progress 0, arms the interval and restarts the clock at 0. |
| AssessmentTool.TickEffect | src/components/assessment/AssessmentTool.tsx:25-33 | A firing comes 1000 ms after the previous one. The interval stays armed iff progress was below 100, which then grows by exactly 3.33. Otherwise progress becomes exactly 100, the stage PROCESSING, and the results timeout is scheduled. |
| AssessmentTool.Step | src/components/assessment/AssessmentTool.tsx:20-34 | An event whose button is not rendered, or whose timer is not armed, changes nothing. A button press moves along its one edge of the stage graph. Only "Start Recording" and a tick change progress or the interval. The timeout shows RESULTS 3000 ms after it was scheduled. |
| AssessmentTool.InitialSatisfiesInv | src/components/assessment/AssessmentTool.tsx:16-17 | The first render satisfies the machine's invariant. |
| AssessmentTool.StepPreservesInv | src/components/assessment/AssessmentTool.tsx:20-34 | Every event keeps the invariant. The interval is armed exactly in RECORDING and the timeout is pending exactly in PROCESSING. Recording progress is a whole number of ticks, at most 31, and the clock reads one second per tick. PROCESSING is at 32 s with progress 100, RESULTS at 35 s. Otherwise progress is 0 or 100. |
| AssessmentTool.RunPreservesInv | src/components/assessment/AssessmentTool.tsx:16-34 | Every state reachable by any sequence of events satisfies the invariant. |
| AssessmentTool.StepFollowsStageGraph | src/components/assessment/AssessmentTool.tsx:50-228 | A step changes the stage iff it follows one edge of INTRO→PREP→RECORDING→PROCESSING→RESULTS→INTRO, each edge with its own event. PREP is entered only by "Begin Assessment" and INTRO only by "Start New Assessment". |
| AssessmentTool.OnlyTickEndsRecording | src/components/assessment/AssessmentTool.tsx:24-34 | RECORDING is left only by a tick that finds progress at or above 100. |
| AssessmentTool.StartRecordingResets | src/components/assessment/AssessmentTool.tsx:20-22 | "Start Recording" in PREP enters RECORDING with progress 0 and the interval armed, whatever a previous attempt left behind. |
| AssessmentTool.TickRule | src/components/assessment/AssessmentTool.tsx:24-34 | Every firing comes one second after the previous one. A tick below 100 adds exactly 3.33 and changes nothing else. A tick at or above 100 sets exactly 100, clears the interval and enters PROCESSING with the results timeout pending. |
| AssessmentTool.TicksAccumulate | src/components/assessment/AssessmentTool.tsx:24-34 | After n ≤ 31 ticks of a fresh recording, at n seconds, progress is 3.33·n and the stage is still RECORDING. |
| AssessmentTool.ProcessingOnTick32 | src/components/assessment/AssessmentTool.tsx:24-34 | 30 ticks give 99.90, short of 100. Tick 31 gives 103.23. Tick 32, at 32 s, clamps to 100 and enters PROCESSING. The clamp lowers progress, so progress is not monotone. |
| AssessmentTool.ClampIsFinal | src/components/assessment/AssessmentTool.tsx:26-28 | The clamp is final: the tick that clamps also clears the interval, so after 32 + n firings a recording is where it was after 32. |
| AssessmentTool.ResultsTiming | src/components/assessment/AssessmentTool.tsx:24-34 | A fresh recording stays in RECORDING for the first 31 ticks, the n-th at n seconds. PROCESSING comes at 32 s. The timeout then shows RESULTS at 35 s = 32·1000 + 3000 ms. |
| AssessmentTool.ReachableTiming | src/components/assessment/AssessmentTool.tsx:20-34 | In every run from the first render, PROCESSING is only ever seen at 32 s after "Start Recording" with progress 100, and RESULTS only at 35 s. |
| AssessmentTool.DisplayedPercent | src/components/assessment/AssessmentTool.tsx:142 | `min(100, round(progress))` is at most 100, and at least 0 for progress ≥ 0. It is 100 exactly from 99.50 on. Below that it is the whole number within half a percent of the progress, halves rounding up. |
| AssessmentTool.Render | src/components/assessment/AssessmentTool.tsx:122-148 | The recording card is shown exactly in RECORDING and the report exactly in RESULTS. The card's bar gets the raw progress and its text gets the rounded, clamped percentage. |
| AssessmentTool.DisplayedPercentBounded | src/components/assessment/AssessmentTool.tsx:139-144 | In every reachable state, the percentage on the recording card is in [0, 100]. |
| AssessmentTool.BarOvershootsText | src/components/assessment/AssessmentTool.tsx:142-144 | At tick 31 the progress bar gets 103.23 while the text reads 100%. |
| AssessmentTool.ReportIsConstant | src/components/assessment/AssessmentTool.tsx:182-219 | Every RESULTS state shows the same report: 15%, "Low Risk", three "Normal". The hard-coded label is the one the dashboard gives a score of 0.15. |
| Dashboard.Classify | src/components/dashboard/Dashboard.tsx:19-23 | Total three-way split: low iff score < 0.3, moderate iff 0.3 ≤ score < 0.6, high iff score ≥ 0.6. |
| Dashboard.RiskColor | src/components/dashboard/Dashboard.tsx:19-23 | `getRiskColor` returns the background class of the score's band. |
| Dashboard.RingStroke | src/components/dashboard/Dashboard.tsx:68 | The ring's stroke colour is the colour of the score's band. |
| Dashboard.LabelTextClass | src/components/dashboard/Dashboard.tsx:77-80 | The label's text colour is that of the score's band. |
| Dashboard.RiskLabel | src/components/dashboard/Dashboard.tsx:81-82 | The label text names the score's band. |
| Dashboard.DashOffset | src/components/dashboard/Dashboard.tsx:70-71 | For a score in [0, 1] the dash offset lies in [0, 282.7]. It is 0 exactly for score 1 and 282.7 exactly for score 0. |
| Dashboard.ClassifyMonotone | src/components/dashboard/Dashboard.tsx:19-23 | A higher score never gives a lower band. |
| Dashboard.BoundariesBelongAbove | src/components/dashboard/Dashboard.tsx:20-21 | 0.3 is moderate and 0.6 is high. Everything below 0.3 is low. |
| Dashboard.DisplaysAgree | src/components/dashboard/Dashboard.tsx:63-83 | All four displays name the same band. Two scores in different bands differ in every display. |
| Dashboard.Painted | src/components/dashboard/Dashboard.tsx:102-107 | A `#rrggbb` inline colour is painted over the class fill. A value that no CSS colour can have is dropped, and the class fill shows. Such a value starts with neither '#' nor '-', has no '(' and no whitespace, is not `revert-layer`, and has a character that is not a letter. |
| Dashboard.TrendBarAsWritten | src/components/dashboard/Dashboard.tsx:102-107 | As written, a trend bar keeps the muted fill whatever its score. |
| Dashboard.ClassNamesAreNotColors | src/components/dashboard/Dashboard.tsx:19-23 | Every class name `getRiskColor` returns has a "-" and no "(", so it cannot be a CSS colour value. |
| Dashboard.TrendBarIgnoresBand | src/components/dashboard/Dashboard.tsx:106 | As written, any two trend bars look the same, such as a low-risk one at 0.15 and a high-risk one at 0.9. |
| Dashboard.TrendBar | src/components/dashboard/Dashboard.tsx:102-107 | As intended, a trend bar is painted in its band's colour. |
| Dashboard.TrendBarShowsBand | src/components/dashboard/Dashboard.tsx:68 | As intended, a trend bar has the ring's colour for the same score, and bars in different bands differ. |
| AuthContext.FirstRender | src/context/AuthContext.tsx:22-24 | Before the mount effect, user and token are null and the provider is loading. |
| AuthContext.Mount | src/context/AuthContext.tsx:27-37 | Token and user are restored iff both keys hold non-empty values; otherwise both stay null. Loading ends and storage is untouched. A stored user that is not JSON makes the effect throw. |
| AuthContext.Login | src/context/AuthContext.tsx:40-56 | A rejected request rethrows with state and storage unchanged. An accepted one always sets the state's token and user. If both writes succeed, storage gets the same token and the serialised user, every other key keeps its value, and nothing is thrown. If the token's `setItem` throws, storage is unchanged; if the user's throws, only the token is written. Either way the storage error is rethrown. |
| AuthContext.Register | src/context/AuthContext.tsx:59-75 | A rejected request rethrows with state and storage unchanged. An accepted one always sets the state's token and user. If both writes succeed, storage gets the same token and the serialised user, every other key keeps its value, and nothing is thrown. If the token's `setItem` throws, storage is unchanged; if the user's throws, only the token is written. Either way the storage error is rethrown. |
| AuthContext.Logout | src/context/AuthContext.tsx:78-86 | Both fields become null and exactly the two keys are removed. Nothing else changes. |
| AuthContext.IsAuthenticated | src/context/AuthContext.tsx:96 | `isAuthenticated` is set exactly when a user is set, whatever the token. |
| AuthContext.RendersChildren | src/context/AuthContext.tsx:99 | The children are rendered exactly when loading is over. |
| AuthContext.ChildrenWaitForMount | src/context/AuthContext.tsx:21-99 | The first render withholds the children, a mount effect that completes shows them, and login, register and logout never change whether they are shown. |
| AuthContext.RegisterActsAsLogin | src/context/AuthContext.tsx:59-75 | `register` has exactly the effect of `login`, on success and on failure. |
| AuthContext.ActionsKeepSync | src/context/AuthContext.tsx:40-86 | Logout, and a login or register whose writes succeed, leave state and storage in step. A rejected attempt changes nothing, whichever writes would fail. |
| AuthContext.PartialWriteSplitsSession | src/context/AuthContext.tsx:27-54 | A login whose user write throws shows the new user, but after a reload the new token is paired with the previously stored user. A login whose token write throws is lost on reload, which restores the old session. |
| AuthContext.LogoutIdempotent | src/context/AuthContext.tsx:78-86 | Logging out twice is logging out once. |
| AuthContext.PersistenceRoundTrip | src/context/AuthContext.tsx:27-51 | The next mount restores what a login stored, if the token is non-empty and parsing undoes serialising. After a logout, the next mount restores nothing. |
| AuthContext.AuthenticatedIgnoresToken | src/context/AuthContext.tsx:96-99 | `isAuthenticated` follows the user alone. A stored user of JSON `null` restores the token without authenticating. Children render once mounted. |
| AuthRoutes.RegisterErrors | backend/src/routes/auth.ts:13-22 | The register validation lists the email message iff the email is missing or invalid. It lists the password message iff the password is missing or shorter than 6. |
| AuthRoutes.LoginErrors | backend/src/routes/auth.ts:82-91 | The login validation lists the email message iff the email is invalid. It lists the password message iff the password is missing; an empty password exists. |
| AuthRoutes.BearerToken | backend/src/routes/auth.ts:58-66 | Every issued token starts with "Bearer ". |
| AuthRoutes.Register | backend/src/routes/auth.ts:11-77 | Invalid input gets 400 with the error list and the table unchanged. A store that throws on lookup gives 500. A known email gets 400 "User already exists" and changes nothing. A new email gets 201 unless bcrypt or the create throws (500, no change) or `jwt.sign` throws (500, row kept). A change to the table is exactly one new row holding the password's hash. Success is 201 "User registered successfully" with a Bearer token and only id and email. |
| AuthRoutes.Login | backend/src/routes/auth.ts:80-136 | The table never changes. With valid input and no thrown call, the reply is 200 "Login successful" iff the email is known and bcrypt accepts the password against its hash. It then returns that row's id and email with a Bearer token. An unknown email or a wrong password gets 400 "Invalid credentials". A thrown lookup, compare or sign gives 500. |
| AuthRoutes.ValidationPrecedesStore | backend/src/routes/auth.ts:17-22 | A request that fails validation gets the same 400 whatever the table holds and whatever later call would throw. |
| AuthRoutes.RegisterAddsOneUser | backend/src/routes/auth.ts:36-50 | A successful register adds exactly one row, holding the hash of the password. Every other row is unchanged and the table stays keyed by email. |
| AuthRoutes.DuplicateRefused | backend/src/routes/auth.ts:27-34 | A known email is refused with 400 "User already exists" and the table unchanged. |
| AuthRoutes.LoginFailuresIdentical | backend/src/routes/auth.ts:101-109 | An unknown email and a wrong password produce identical results. |
| AuthRoutes.RegisterThenLogin | backend/src/routes/auth.ts:97-130 | After registering, logging in with the same credentials returns the new user and a token. |
| AuthRoutes.LoginFaultsAreServerErrors | backend/src/routes/auth.ts:80-136 | A thrown lookup, a thrown bcrypt comparison for a known email, or a thrown `jwt.sign` after the password matched gives 500 "Server error", and the table is unchanged. |
| AuthRoutes.FaultsAreServerErrors | backend/src/routes/auth.ts:72-75 | A thrown store, bcrypt or jwt call gives 500 "Server error". The table changes only when `jwt.sign` throws after the row was created. |
| SessionRoutes.ListSessions | backend/src/routes/sessions.ts:12-30 | The result holds exactly the caller's sessions (as a multiset), ordered by `recordedAt` descending. A store failure gives 500. |
| Ordering.NewestFirst | backend/src/routes/sessions.ts:16-23 | The query returns exactly the matching records (as a multiset), each matching, ordered by the key descending. |
| Ordering.OwnedBy | backend/src/routes/sessions.ts:17-19 | The filter keeps a record iff its owner is the given user. |
| SessionRoutes.CreateSession | backend/src/routes/sessions.ts:33-60 | A body with a falsy feature payload or an undefined risk score gets 400 and changes nothing. Otherwise exactly one session is appended and returned with 201. Its user comes from the token, its model version is "1.0.0" and its payloads come from the body. |
| SessionRoutes.Complete | backend/src/routes/sessions.ts:39 | The guard passes iff the three feature payloads are truthy and the risk score is defined. A passing body has all four fields, and none of its payloads is `undefined`, `null`, `false`, `0` or `""`. |
| Json.Truthy | backend/src/routes/sessions.ts:39 | A value is falsy iff it is `undefined`, `null`, `false`, `0` or `""`. So `true`, every object and array (even an empty one), every other number and every other string is truthy. |
| SessionRoutes.ZeroRiskAccepted | backend/src/routes/sessions.ts:39 | A risk score of 0 is accepted. A feature payload of 0 and an undefined risk score are rejected. |
| SessionRoutes.CreateThenList | backend/src/routes/sessions.ts:16-55 | A created session shows in its owner's list, which grows by one. Every other user's list is unchanged. |
| UploadRoute.FusionBody | backend/src/routes/upload.ts:102-105 | The fusion body has key `v` iff the video features are defined and `a` iff the audio features are defined, holding those values. |
| Json.Member | backend/src/routes/upload.ts:103-104 | Reading a property of `null` or `undefined` throws a TypeError naming the value and the key. Reading an own data key of a plain object gives its value, or `undefined` when the object has no such key. |
| Json.Message | backend/src/routes/upload.ts:136-138 | The TypeError's message is "Cannot read properties of ", then the receiver, then " (reading '", the key and "')", each at its position. |
| Json.MessageNamesKey | backend/src/routes/upload.ts:136-138 | For a known receiver, the message determines the key: two errors with the same message are the same error. |
| UploadRoute.StageError | backend/src/routes/upload.ts:59-111 | A non-ok status fails with the stage's name and status text. A `fetch` or `response.json()` that throws fails with the thrown error's own message. |
| UploadRoute.NoSuchFile | backend/src/routes/upload.ts:128-129 | The ENOENT message is "ENOENT: no such file or directory, unlink '" followed by the path and a closing quote. |
| UploadRoute.NoSuchFileNamesPath | backend/src/routes/upload.ts:128-129 | The message names the missing file: distinct paths give distinct messages. |
| UploadRoute.Unlink | backend/src/routes/upload.ts:128-129 | Deleting a file succeeds iff it exists and removes exactly it. |
| UploadRoute.Upload | backend/src/routes/upload.ts:41-140 | A missing file gives 400 with no request and no change. Requests go out in the order video, audio, fusion, at most one each. A session is stored only after all three, for the authenticated user. When nothing is stored the files stay on disk. |
| UploadRoute.Infer | backend/src/routes/upload.ts:59-92 | The video request goes first and the audio request second. A failing stage stops the request with the same guarantees as the whole handler. |
| UploadRoute.Fuse | backend/src/routes/upload.ts:94-113 | The video and audio requests come first; a third request, if sent, is the fusion request. A session is stored only after all three requests, for the authenticated user, and when none is stored the files stay. |
| UploadRoute.Persist | backend/src/routes/upload.ts:115-135 | Success appends the session and deletes both temporary files. When no session is stored, the disk is unchanged and the reply is a 500. |
| UploadRoute.StageFailureAborts | backend/src/routes/upload.ts:59-111 | A failing video, audio or fusion stage ends the request with 500. A non-ok status is reported with the stage's name and status text, a thrown error with its own message. No later request is sent, nothing is stored and the files stay. |
| UploadRoute.FusionRequestCarriesFeatures | backend/src/routes/upload.ts:94-107 | The fusion request carries the video answer's `videoFeatures` as `v` and the audio answer's `audioFeatures` as `a`. |
| UploadRoute.SuccessfulUpload | backend/src/routes/upload.ts:113-135 | The stored session takes its user from the token and its risk score and fusion output from the fusion answer. It is stamped "1.0.0" and returned with 201, and both files are deleted. |
| UploadRoute.CleanupFailureAfterPersist | backend/src/routes/upload.ts:116-139 | If the video file is already gone, the session stays stored but the caller gets a 500 with the ENOENT message of `unlinkSync`. |
| BearerGate.RemoveAll | backend/app/main.py:75 | Removing every occurrence never lengthens the string. It shortens it by at least the pattern's length when the string starts with the pattern. |
| BearerGate.ExtractToken | backend/app/main.py:75 | For a header starting with "Bearer ", the token is at most the header's length minus 7. |
| BearerGate.Authenticate | backend/app/main.py:67-96 | Every refusal is 401. A missing credential, or one not starting with the case-sensitive "Bearer ", is refused with the plain message. Success needs a verified token whose uid names a stored document, and returns that document with `uid` set. |
| BearerGate.CurrentUserAsWritten | backend/app/main.py:67-68 | As declared, the gate reads `authorization` from the query string, so a request without that query parameter is refused. |
| BearerGate.CurrentUser | backend/app/main.py:67-68 | The gate reading the `Authorization` header refuses a request without one. |
| BearerGate.Me | backend/app/main.py:160-167 | `/auth/me` returns exactly the keys uid, name, email and role, each the user's value or null. |
| BearerGate.MeRoute | backend/app/main.py:160-167 | `/auth/me` either fails with 401 or returns exactly the four keys. |
| BearerGate.RemoveAllAbsent | backend/app/main.py:75 | `str.replace` leaves a string with no occurrence of the pattern unchanged. |
| BearerGate.ExtractsPlainToken | backend/app/main.py:75 | For "Bearer " + t where t has no "Bearer ", the token is t. |
| BearerGate.ReplaceRemovesEveryOccurrence | backend/app/main.py:75 | Every occurrence is removed, not just the prefix. For any text x that has no character starting the pattern, x + pattern + y becomes x followed by y with its own occurrences removed. So "Bearer abcBearer def" gives "abcdef". |
| BearerGate.HeaderCheckedFirst | backend/app/main.py:68-73 | A malformed or missing credential gets the same 401 whatever the verifier and the collection hold. |
| BearerGate.MissingUserIs401 | backend/app/main.py:77-96 | The "User not found" 404 is caught by the broad `except` and surfaces as 401. |
| BearerGate.MeReportsTokenUid | backend/app/main.py:88-90 | On success, `/auth/me` reports the token's uid with the document's name and role. |
| BearerGate.HeaderIgnoredAsWritten | backend/app/main.py:67 | A well-formed `Authorization: Bearer` header gets 401 from the gate as written. The intended gate accepts it. |
| MlService.PublicView | ml_service/main.py:73-82 | The response model keeps id, email, name, role and creation time, and drops the password hash. |
| MlService.FindByEmail | ml_service/main.py:141-144 | `find_one` by email returns the first document with that email, and returns nothing iff none has it. |
| MlService.FindById | ml_service/main.py:179 | `find_one` by id returns a document with that id, and returns nothing iff none has it. |
| MlService.AuthenticateUser | ml_service/main.py:146-152 | A user is returned iff the email is known and the password matches; it is the one found by email. |
| MlService.CreateAccessToken | ml_service/main.py:154-162 | The token keeps every input claim and adds `exp`. `exp` is now + delta for a truthy delta, and now + 15 min for a missing or zero delta. |
| MlService.Lifetime | ml_service/main.py:156-159 | A token's lifetime is never zero. A truthy delta is used as given, and a missing or zero one falls back to 15 minutes. |
| MlService.Decode | ml_service/main.py:171 | A token decodes iff it is signed and its claims pass python-jose's default checks: integer `iat`, integer `nbf` not after now, integer `exp` not before now, no `aud` or `at_hash`, string `sub` and `jti`. It then yields its own claims. A token is still accepted at `exp`, and refused once `exp` is earlier than now. |
| MlService.GetCurrentUser | ml_service/main.py:164-182 | Given a token string, every refusal is 401 "Could not validate credentials". It succeeds iff the token decodes, has `sub`, and `sub` names a stored user, whose public view is returned. |
| MlService.BearerScheme | ml_service/main.py:45 | `OAuth2PasswordBearer` passes on the text after the first space iff the header is present and its scheme is "bearer" in any case. A bare "Bearer" passes on an empty token. Anything else is 401 "Not authenticated". |
| MlService.PartitionAtSpace | ml_service/main.py:45 | `partition(" ")` splits at the first space. Without a space, the whole text is the scheme. |
| MlService.Lower | ml_service/main.py:45 | The scheme is compared in lower case: letters A to Z map to a to z. |
| MlService.NoBearerScheme | ml_service/main.py:45 | A header whose text before its first space is not "bearer" in any case has no split into a bearer scheme, a space and a token. |
| MlService.SpacedIsNotBearer | ml_service/main.py:45 | Lower case keeps spaces, so a header containing a space never reads as "bearer" as a whole. |
| MlService.LowerBearer | ml_service/main.py:45 | "Bearer" and "bearer" both read as "bearer". |
| MlService.FirstSpaceSplit | ml_service/main.py:45 | A scheme without spaces, a space and a token split back into that scheme and token. |
| MlService.BearerHeaderCarriesToken | ml_service/main.py:45 | "Bearer " or "bearer " followed by a token passes the scheme check with that token. |
| MlService.ReadUsersMe | ml_service/main.py:240-242 | A header that is not a bearer one gets 401 "Not authenticated" before the token is read. Every other refusal is 401 "Could not validate credentials". |
| MlService.LoginThenMe | ml_service/main.py:223-242 | The login token, sent as "Bearer <token>" in either case, yields the user it was issued for at `/users/me` for 30 minutes, and 401 afterwards. |
| MlService.Register | ml_service/main.py:191-221 | A known email gets 400 "Email already registered" and changes nothing. Otherwise exactly one document is appended, with a fresh id, the password's hash and the role defaulting to "patient". The response omits the hash. |
| MlService.RoleOf | ml_service/main.py:67 | A role left out of the body is "patient"; a given one is kept. |
| MlService.LoginForAccessToken | ml_service/main.py:223-238 | The form's username is the email. Failure is 401. Success returns a "bearer" token with `sub` = the user's id and `exp` = now + 30 min. |
| MlService.RegisterKeepsAccountsUnique | ml_service/main.py:192-213 | Registration never creates a second account for an email. With a fresh uuid it never reuses an id. It adds at most one document. |
| MlService.RoleDefaultsToPatient | ml_service/main.py:67 | A request without a role registers a "patient". |
| MlService.ZeroDeltaFallsBack | ml_service/main.py:156-159 | A zero timedelta falls back to 15 minutes like a missing one. A negative one is truthy and gives an already-expired token, refused with the expired error. |
| MlService.LoginTokenLifetime | ml_service/main.py:223-238 | The login token authenticates the user it was issued for, up to and including `exp` = now + 30 min, and is refused after. |
| MlService.CreateAssessment | ml_service/main.py:299-315 | Exactly one assessment is appended and returned. It has status "pending", the caller's user id, the body's notes and symptoms, and no scores or media ids. |
| MlService.GetAssessments | ml_service/main.py:317-323 | The result holds exactly the caller's assessments (as a multiset), ordered by `created_at` descending. |
| MlService.CreateThenGet | ml_service/main.py:299-323 | A new assessment shows in its owner's list, and every other user's list is unchanged. |

## Left out

- Timers and React rendering: each `setInterval` firing and the `setTimeout` is one discrete event. Real scheduling, React state batching and double-invoked updaters are not modelled.
- Floating point: progress is exact hundredths and risk scores are Dafny `real`. IEEE accumulation of 3.33, `toFixed` and `formatDate` are not modelled.
- AssessmentTool: no media capture, countdown, camera toggle or upload, because the component has none.
- Dashboard: the mock data, the trend bars' heights and the percentage text are page content, not logic.
- AuthContext: `apiClient.login`/`register` are an oracle outcome carrying a token string and a user. A response missing either field is not modelled. Neither is `useAuth` outside a provider. A throwing `setItem` is identified by its DOMException name; its message text is not modelled.
- AuthContext.Mount: reading `localStorage` is assumed not to throw. When storage access is denied it throws, and the effect stops before clearing `loading`. That case is not modelled.
- AuthRoutes: `isEmail` is a parameter. bcrypt, the JWT secret and 7-day expiry, and id generation are parameters. The `fault` oracle says which awaited call throws. The body's fields are strings or absent: a JSON `null`, number or array field is not represented. Its outcomes are still reachable through the oracle. A `null` login password passes `exists()` and makes `bcrypt.compare` throw, which is CompareFails. A numeric register password passes `isLength` and makes `bcrypt.hash` throw, which is HashFails. Validation errors are their `msg` texts: the `type`, `value`, `path` and `location` fields of express-validator's error objects are not modelled. The password length is counted in characters, so validator.js's `isLength` rule of not counting the U+FE0E/U+FE0F presentation selectors is not modelled.
- SessionRoutes, UploadRoute: the passport JWT guard (backend/src/config/passport.ts) is not part of this model; handlers receive the authenticated user's id. The database schema is not part of this model either, so a Prisma rejection of a field's type is one form of the database-failure flag.
- UploadRoute: multer's disk storage and file naming are not modelled; the uploaded files are paths on an abstract disk. The ML service is three oracle functions. Each answers with a JSON body, a non-ok status with its text, or an error that `fetch` or `response.json()` throws with its message; the text of node-fetch's own messages is part of that oracle.
- UploadRoute.Persist: the 500 message for a database failure is a fixed string, not Prisma's error text.
- BearerGate: Firebase's `verify_id_token` is an oracle. The exception texts inside the 401 detail are abstract strings. The signup, login, contact and assessment routes of backend/app/main.py are thin Firebase and Firestore calls and are left out.
- MlService: EmailStr and pydantic validation are not modelled; the fields are plain strings. Times are whole seconds and timedeltas are whole seconds. The inference endpoints return constant mock data and are left out.
- Json.Member: only own data keys of plain objects are modelled. A property found through a prototype reads as `undefined` in the model. JavaScript gives a value for an array's or string's `length` and indices, and for `Object.prototype` names such as `constructor`. The keys the upload handler reads (`videoFeatures`, `audioFeatures`, `riskScore`, `fusionOutput`) are none of these.
- MlService.Lower: ASCII only. Python's `str.lower` also lower-cases non-ASCII letters (É becomes é), which the model leaves unchanged. This cannot change whether a scheme equals "bearer". The only non-ASCII characters that lower-case into ASCII become 'k' (U+212A) or 'i' with a combining dot (U+0130), and neither letter is in "bearer".
- MlService.Decode: a claim is an integer or a string. python-jose reads `iat`, `nbf` and `exp` through `int(...)`, which also takes a numeric string or a float; the model refuses every string there. Leeway is 0 as the service leaves it, no issuer or subject is passed, and the signature and algorithm check is the `Signed`/`Garbled` split.
- MlService.GetCurrentUser: it starts from the token `OAuth2PasswordBearer` passed on. The scheme check and its 401 "Not authenticated" are in `BearerScheme` and `ReadUsersMe`. How a token string reads as a signed token is the `parse` parameter.
- MlService.RegisterKeepsAccountsUnique: holds for registrations handled one at a time. `find_one` and `insert_one` (ml_service/main.py:194, 213) are separate awaits and no unique index is shown, so two concurrent registrations of one email could both insert.
- Not modelled: src/api/apiClient.ts, src/services/api.ts, the auth modal, the login/signup/contact pages, the presentational pages, the AI helper modules and the server bootstrapping. They hold no logic beyond markup, wiring or foreign calls.

## Findings

| source | as written | input that shows it | evidently intended | confidence | as-written member | corrected member |
|---|---|---|---|---|---|---|
| src/components/dashboard/Dashboard.tsx:106 | the trend bar's inline `backgroundColor` is `getRiskColor`'s Tailwind class name (`bg-green-500` and so on), which is not a CSS colour, so the browser drops the declaration | any trend bar: a 0.15 and a 0.9 score both show the muted fill | paint the bar in the band's colour, as line 158 does with the same value as a class and as the ring does with its hex colours | high, not executed | Dashboard.TrendBarAsWritten (shown by Dashboard.TrendBarIgnoresBand) | Dashboard.TrendBar (Dashboard.TrendBarShowsBand) |
| backend/app/main.py:67 | `get_current_user(authorization: Optional[str] = None)` has no `Header()`, so FastAPI fills `authorization` from the query string | a request with header `Authorization: Bearer <valid token>` and no `authorization` query parameter is refused with 401 | read the `Authorization` header, as the "Bearer " check and RFC 6750 section 2.1 imply | high, not executed | BearerGate.CurrentUserAsWritten (shown by BearerGate.HeaderIgnoredAsWritten) | BearerGate.CurrentUser (used by BearerGate.MeRoute; BearerGate.MeReportsTokenUid) |

=== FILE: assessment_tool.dfy ===
/**
  The assessment screen (src/components/assessment/AssessmentTool.tsx): a
  five-stage machine whose recording phase is driven by a one-second
  interval timer. The recording is simulated; no media is captured.

  Progress is kept in exact hundredths of a percent: one tick adds 333
  (the source's 3.33) and 100% is 10000. Each firing of the interval and
  of the three-second results timeout is one discrete event; a button
  press is an event too, and a button that is not rendered in the current
  stage, or a timer that is not armed, leaves the state unchanged.

  Timer time is kept too: the state's clock counts the milliseconds of
  timer time since "Start Recording". A firing of the interval comes one
  period after the previous one and the results timeout comes its delay
  after the clamp; a button press takes no timer time.
*/
module AssessmentTool {
  import Dashboard

  datatype Stage = Intro | Prep | Recording | Processing | Results

  /** Progress added by one tick, in hundredths of a percent (3.33%). */
  const TickStep: int := 333
  /** 100%, in hundredths of a percent. */
  const Full: int := 10000
  /** Period of the progress interval. */
  const TickMillis: nat := 1000
  /** Delay between entering PROCESSING and showing the results. */
  const ResultsDelayMillis: nat := 3000

  /** The component state: the stage, the progress, whether the interval is
      armed, whether the results timeout is pending, and the timer time in
      milliseconds since the current recording was started. */
  datatype Assessment = Assessment(stage: Stage, progress: int, ticking: bool, resultsDue: bool, clock: nat)

  datatype Event =
    | BeginAssessment      // "Begin Assessment" button
    | StartRecording       // "Start Recording" button
    | Tick                 // one firing of the progress interval
    | ResultsTimeout       // the 3000 ms timeout firing
    | StartNewAssessment   // "Start New Assessment" button

  /** The state on first render. */
  function Initial(): (a: Assessment)
    ensures a.stage == Intro && a.progress == 0
    ensures !a.ticking && !a.resultsDue
  {
    Assessment(Intro, 0, false, false, 0)
  }

  /** `startRecording`: enter RECORDING, reset progress, arm the interval;
      the clock starts from zero. */
  function StartRecordingEffect(a: Assessment): (r: Assessment)
    ensures r.stage == Recording && r.progress == 0 && r.ticking && r.clock == 0
    ensures r.resultsDue == a.resultsDue
  {
    a.(stage := Recording, progress := 0, ticking := true, clock := 0)
  }

  /** The interval callback's updater: below 100% add 3.33; at or above 100%
      clear the interval, enter PROCESSING, schedule the results and clamp to 100.
      The firing comes one period after the previous one. */
  function TickEffect(a: Assessment): (r: Assessment)
    requires a.ticking
    ensures r.clock == a.clock + TickMillis
    ensures r.ticking <==> a.progress < Full
    ensures a.progress < Full ==> r.progress == a.progress + TickStep && r.stage == a.stage && r.resultsDue == a.resultsDue
    ensures a.progress >= Full ==> r.progress == Full && r.stage == Processing && r.resultsDue
  {
    var a' := a.(clock := a.clock + TickMillis);
    if a.progress >= Full then
      a'.(progress := Full, ticking := false, stage := Processing, resultsDue := true)
    else
      a'.(progress := a.progress + TickStep)
  }

  /** Whether an event can happen in a state: its button is rendered, or its timer is armed. */
  predicate Enabled(a: Assessment, e: Event) {
    match e
    case BeginAssessment => a.stage == Intro
    case StartRecording => a.stage == Prep
    case Tick => a.ticking
    case ResultsTimeout => a.resultsDue
    case StartNewAssessment => a.stage == Results
  }

  /** One event. A disabled event changes nothing; a button press moves along its one
      edge of the stage graph; the timeout, wherever it fires, shows the results three
      seconds on. */
  function Step(a: Assessment, e: Event): (r: Assessment)
    ensures !Enabled(a, e) ==> r == a
    ensures Enabled(a, e) && e !in {Tick, ResultsTimeout} ==> Edge(a.stage, r.stage, e)
    ensures e != Tick && e != StartRecording ==> r.progress == a.progress && r.ticking == a.ticking
    ensures Enabled(a, e) && e == ResultsTimeout ==>
      r.stage == Results && !r.resultsDue && r.clock == a.clock + ResultsDelayMillis
  {
    match e
    case BeginAssessment => if a.stage == Intro then a.(stage := Prep) else a
    case StartRecording => if a.stage == Prep then StartRecordingEffect(a) else a
    case Tick => if a.ticking then TickEffect(a) else a
    case ResultsTimeout =>
      if a.resultsDue then a.(stage := Results, resultsDue := false, clock := a.clock + ResultsDelayMillis) else a
    case StartNewAssessment => if a.stage == Results then a.(stage := Intro) else a
  }

  function Run(a: Assessment, events: seq<Event>): Assessment
    decreases |events|
  {
    if |events| == 0 then a else Run(Step(a, events[0]), events[1..])
  }

  /** n firings of the interval. */
  function Ticks(a: Assessment, n: nat): Assessment {
    if n == 0 then a else Step(Ticks(a, n - 1), Tick)
  }

  /** What every reachable state satisfies: the interval is armed exactly in
      RECORDING, the results timeout is pending exactly in PROCESSING, during
      recording progress is a whole number of ticks up to 31, and otherwise it
      is 0 (before the first recording) or the clamped 100%. The clock reads one
      second per tick while recording, 32 s in PROCESSING and 35 s in RESULTS. */
  ghost predicate Inv(a: Assessment) {
    && (a.ticking <==> a.stage == Recording)
    && (a.resultsDue <==> a.stage == Processing)
    && (a.stage == Recording ==> 0 <= a.progress <= 31 * TickStep && a.progress % TickStep == 0)
    && (a.stage == Recording ==> a.clock * TickStep == a.progress * TickMillis)
    && (a.stage == Processing ==> a.clock == 32000 && a.progress == Full)
    && (a.stage == Results ==> a.clock == 35000)
    && (a.stage != Recording ==> a.progress == 0 || a.progress == Full)
  }

  /** The stage graph: a step changes the stage only along the five edges
      INTRO -> PREP -> RECORDING -> PROCESSING -> RESULTS -> INTRO, each
      taken by exactly one event. */
  ghost predicate Edge(from: Stage, to: Stage, e: Event) {
    || (from == Intro && to == Prep && e == BeginAssessment)
    || (from == Prep && to == Recording && e == StartRecording)
    || (from == Recording && to == Processing && e == Tick)
    || (from == Processing && to == Results && e == ResultsTimeout)
    || (from == Results && to == Intro && e == StartNewAssessment)
  }

  lemma InitialSatisfiesInv()
    ensures Inv(Initial())
  {
  }

  lemma StepPreservesInv(a: Assessment, e: Event)
    requires Inv(a)
    ensures Inv(Step(a, e))
  {
  }

  /** Every state reached from the first render by any sequence of events satisfies Inv. */
  lemma {:induction false} RunPreservesInv(a: Assessment, events: seq<Event>)
    requires Inv(a)
    ensures Inv(Run(a, events))
    decreases |events|
  {
    if |events| > 0 {
      StepPreservesInv(a, events[0]);
      RunPreservesInv(Step(a, events[0]), events[1..]);
    }
  }

  /** A step changes the stage iff it takes an edge of the stage graph from the current
      stage; in particular PREP is entered only by "Begin Assessment" and INTRO only
      by "Start New Assessment". */
  lemma StepFollowsStageGraph(a: Assessment, e: Event)
    requires Inv(a)
    ensures Step(a, e).stage != a.stage <==> Edge(a.stage, Step(a, e).stage, e)
  {
  }

  /** Only the clamp tick leaves RECORDING; no button is shown while recording. */
  lemma OnlyTickEndsRecording(a: Assessment, e: Event)
    requires Inv(a) && a.stage == Recording
    ensures Step(a, e).stage != Recording ==> e == Tick && a.progress >= Full
  {
  }

  /** Pressing "Start Recording" in PREP enters RECORDING from zero progress with the
      interval armed, whatever progress the previous attempt left behind. */
  lemma StartRecordingResets(a: Assessment)
    requires Inv(a) && a.stage == Prep
    ensures Step(a, StartRecording) == Assessment(Recording, 0, true, false, 0)
  {
  }

  /** One tick below 100% adds exactly 3.33% and changes nothing else but the clock;
      one tick at or above 100% sets exactly 100%, disarms the interval and enters
      PROCESSING. Either way the firing comes one second after the previous one. */
  lemma TickRule(a: Assessment)
    requires a.ticking
    ensures Step(a, Tick).clock == a.clock + 1000
    ensures a.progress < Full ==> Step(a, Tick) == a.(progress := a.progress + TickStep, clock := a.clock + TickMillis)
    ensures a.progress >= Full ==>
      var r := Step(a, Tick);
      r.progress == Full && !r.ticking && r.stage == Processing && r.resultsDue
  {
  }

  /** The first 31 ticks of a recording each add 3.33%: after n of them, n seconds in,
      the progress is 3.33·n and the machine is still recording. */
  lemma {:induction false} TicksAccumulate(a: Assessment, n: nat)
    requires a == Assessment(Recording, 0, true, false, 0)
    requires n <= 31
    ensures Ticks(a, n) == Assessment(Recording, n * TickStep, true, false, n * TickMillis)
  {
    if n > 0 {
      TicksAccumulate(a, n - 1);
    }
  }

  /** With exact arithmetic 30 ticks give 99.90% (short of 100), tick 31 overshoots
      to 103.23%, and only tick 32 clamps to 100% and enters PROCESSING; the clamp
      lowers the progress, so progress is not monotone. */
  lemma ProcessingOnTick32(a: Assessment)
    requires a == Assessment(Recording, 0, true, false, 0)
    ensures Ticks(a, 30).progress == 9990 && Ticks(a, 30).stage == Recording
    ensures Ticks(a, 31).progress == 10323 && Ticks(a, 31).stage == Recording
    ensures Ticks(a, 32) == Assessment(Processing, Full, false, true, 32000)
    ensures Ticks(a, 32).progress < Ticks(a, 31).progress
  {
    TicksAccumulate(a, 30);
    TicksAccumulate(a, 31);
  }

  /** The clamp is final: the tick that clamps also clears the interval, so a
      recording's state after 32 + n firings is its state after 32. */
  lemma {:induction false} ClampIsFinal(a: Assessment, n: nat)
    requires a == Assessment(Recording, 0, true, false, 0)
    ensures Ticks(a, 32 + n) == Ticks(a, 32)
  {
    if n == 0 {
    } else {
      ClampIsFinal(a, n - 1);
      ProcessingOnTick32(a);
      assert Ticks(a, 32 + n) == Step(Ticks(a, 32 + (n - 1)), Tick);
    }
  }

  /** PROCESSING is entered on the interval's 32nd firing, 32 seconds after "Start
      Recording", and the results are shown three seconds later, at 35 seconds. */
  lemma ResultsTiming(a: Assessment)
    requires a == Assessment(Recording, 0, true, false, 0)
    ensures forall n: nat :: n < 32 ==> Ticks(a, n).stage == Recording && Ticks(a, n).clock == 1000 * n
    ensures Ticks(a, 32).stage == Processing && Ticks(a, 32).clock == 32000
    ensures Step(Ticks(a, 32), ResultsTimeout) == Assessment(Results, Full, false, false, 35000)
  {
    forall n: nat | n < 32
      ensures Ticks(a, n).stage == Recording && Ticks(a, n).clock == 1000 * n
    {
      TicksAccumulate(a, n);
    }
    ProcessingOnTick32(a);
  }

  /** In every run from the first render, PROCESSING is only ever seen 32 s after
      "Start Recording" and RESULTS only 35 s after it. */
  lemma ReachableTiming(events: seq<Event>)
    ensures var a := Run(Initial(), events);
      && (a.stage == Processing ==> a.clock == 32 * TickMillis && a.progress == Full)
      && (a.stage == Results ==> a.clock == 32 * TickMillis + ResultsDelayMillis)
  {
    RunPreservesInv(Initial(), events);
  }

  /** `Math.min(100, Math.round(progress))` with the progress in hundredths;
      `Math.round` rounds halves up, which is floor(x + 0.5). */
  function DisplayedPercent(progress: int): (d: int)
    ensures d <= 100
    ensures progress >= 0 ==> d >= 0
    ensures d < 100 ==> 100 * d - 50 <= progress < 100 * d + 50
    ensures d == 100 <==> progress >= 9950
  {
    var rounded := (progress + 50) / 100;
    if rounded < 100 then rounded else 100
  }

  /** The hard-coded report of the RESULTS stage. */
  datatype Report = Report(riskPercent: nat, riskLabel: string, motor: string, speech: string, facial: string)

  /** What the card body shows. The progress bar gets the raw progress while the
      percentage text is rounded and clamped. */
  datatype Screen =
    | IntroScreen
    | PrepScreen
    | RecordingScreen(percentText: int, barValue: int)
    | ProcessingScreen
    | ResultsScreen(report: Report)

  function Render(a: Assessment): (s: Screen)
    ensures s.RecordingScreen? <==> a.stage == Recording
    ensures s.ResultsScreen? <==> a.stage == Results
    ensures s.RecordingScreen? ==> s.barValue == a.progress && s.percentText == DisplayedPercent(a.progress)
  {
    match a.stage
    case Intro => IntroScreen
    case Prep => PrepScreen
    case Recording => RecordingScreen(DisplayedPercent(a.progress), a.progress)
    case Processing => ProcessingScreen
    case Results => ResultsScreen(Report(15, "Low Risk", "Normal", "Normal", "Normal"))
  }

  /** The displayed percentage of every reachable state lies in [0, 100]. */
  lemma DisplayedPercentBounded(events: seq<Event>)
    ensures var a := Run(Initial(), events);
      a.stage == Recording ==> 0 <= Render(a).percentText <= 100
  {
    RunPreservesInv(Initial(), events);
  }

  /** At tick 31 the bar is handed 103.23% while the text reads 100%. */
  lemma BarOvershootsText(a: Assessment)
    requires a == Assessment(Recording, 0, true, false, 0)
    ensures Render(Ticks(a, 31)) == RecordingScreen(100, 10323)
  {
    TicksAccumulate(a, 31);
  }

  /** The report does not depend on the recording: every RESULTS state shows the same
      15% "Low Risk" with three "Normal" analyses, and the hard-coded label is the one
      the dashboard's classification gives a score of 0.15. */
  lemma ReportIsConstant(a: Assessment, b: Assessment)
    requires a.stage == Results && b.stage == Results
    ensures Render(a) == Render(b)
    ensures Render(a).report.riskPercent == 15
    ensures Render(a).report.riskLabel == Dashboard.RiskLabel(0.15)
    ensures Render(a).report.motor == Render(a).report.speech == Render(a).report.facial == "Normal"
  {
  }
}

=== FILE: auth_context.dfy ===
/**
  The client's authentication context (src/context/AuthContext.tsx): the
  `{user, token}` state of the provider, kept in step with two keys of the
  browser's `localStorage`. The backend call behind `login`/`register` is
  an oracle outcome, `JSON.stringify` of a user is the `serialize`
  parameter and `JSON.parse` the `parse` parameter.
*/
module AuthContext {
  import opened Common

  datatype User = User(id: string, email: string)

  type Storage = map<string, string>

  const TokenKey: string := "auth_token"
  const UserKey: string := "auth_user"

  /** What `JSON.parse` makes of a stored string: a user, JSON `null`, or a
      SyntaxError for text that is not JSON. */
  datatype Parsed = Decoded(user: Option<User>) | Malformed

  /** The provider's state together with the storage it mirrors. */
  datatype AuthState = AuthState(user: Option<User>, token: Option<string>, loading: bool, storage: Storage)

  /** What the backend answered to a login or register request; a rejection
      is the error `apiClient` throws. */
  datatype ApiOutcome = Accepted(token: string, user: User) | Rejected(reason: string)

  /** The state after an async action: the new state and the error it rethrew, if any. */
  datatype Completion = Completion(state: AuthState, thrown: Option<string>)

  /** The error that escapes the mount effect when the stored user is not JSON. */
  datatype MountError = StoredUserNotJson

  /** `localStorage.getItem(key)` is truthy: present and not the empty string. */
  predicate Saved(storage: Storage, key: string) {
    key in storage && storage[key] != ""
  }

  /** The first render: nothing restored yet, children withheld while loading. */
  function FirstRender(storage: Storage): (s: AuthState)
    ensures s.user == None && s.token == None && s.loading && s.storage == storage
  {
    AuthState(None, None, true, storage)
  }

  /** The mount effect: restore token and user only when both keys are saved, then stop loading. */
  function Mount(storage: Storage, parse: string -> Parsed): (r: Result<AuthState, MountError>)
    ensures r.Err? <==> Saved(storage, TokenKey) && Saved(storage, UserKey) && parse(storage[UserKey]).Malformed?
    ensures r.Ok? ==> !r.value.loading && r.value.storage == storage
    ensures r.Ok? ==> (r.value.token.Some? <==> Saved(storage, TokenKey) && Saved(storage, UserKey))
    ensures r.Ok? && r.value.token.Some? ==>
      r.value.token.value == storage[TokenKey] && parse(storage[UserKey]) == Decoded(r.value.user)
    ensures r.Ok? && r.value.token.None? ==> r.value.user.None?
  {
    var s := FirstRender(storage);
    if Saved(storage, TokenKey) && Saved(storage, UserKey) then
      match parse(storage[UserKey])
      case Malformed => Err(StoredUserNotJson)
      case Decoded(u) => Ok(s.(token := Some(storage[TokenKey]), user := u, loading := false))
    else
      Ok(s.(loading := false))
  }

  /** `isAuthenticated: !!user`: a user object is always truthy, so the flag is set
      exactly when a user is, whatever the token. */
  function IsAuthenticated(s: AuthState): (b: bool)
    ensures b <==> s.user.Some?
    ensures forall t :: b == (s.(token := t).user.Some?)
  {
    s.user.Some?
  }

  /** `{!loading && children}`: the children appear once loading is over. */
  function RendersChildren(s: AuthState): (b: bool)
    ensures b <==> !s.loading
  {
    !s.loading
  }

  /** Which `localStorage.setItem` of a login throws (a full quota or denied storage):
      none, the token's write (so nothing is written), or the user's write (so only
      the token is). */
  datatype StorageWrites = AllWritten | TokenWriteThrows | UserWriteThrows

  /** The error a throwing `setItem` raises, by its DOMException name. */
  const StorageError: string := "QuotaExceededError"

  /** `login`: on success adopt the returned token and user in state, then write them to
      storage; a rejection rethrows with nothing changed, and a throwing write rethrows
      after the state has already been set. */
  function Login(s: AuthState, outcome: ApiOutcome, writes: StorageWrites, serialize: User -> string): (c: Completion)
    ensures outcome.Rejected? ==> c == Completion(s, Some(outcome.reason))
    ensures outcome.Accepted? ==>
      && c.state.token == Some(outcome.token) && c.state.user == Some(outcome.user)
      && c.state.loading == s.loading
      && (c.thrown == None <==> writes == AllWritten)
      && (c.thrown != None ==> c.thrown == Some(StorageError))
    ensures outcome.Accepted? && writes == AllWritten ==>
      && c.state.storage.Keys == s.storage.Keys + {TokenKey, UserKey}
      && c.state.storage[TokenKey] == outcome.token
      && c.state.storage[UserKey] == serialize(outcome.user)
      && forall k :: k in s.storage && k != TokenKey && k != UserKey ==> c.state.storage[k] == s.storage[k]
    ensures outcome.Accepted? && writes == TokenWriteThrows ==> c.state.storage == s.storage
    ensures outcome.Accepted? && writes == UserWriteThrows ==> c.state.storage == s.storage[TokenKey := outcome.token]
  {
    match outcome
    case Rejected(reason) => Completion(s, Some(reason))
    case Accepted(token, user) =>
      var state := s.(token := Some(token), user := Some(user));
      match writes
      case TokenWriteThrows => Completion(state, Some(StorageError))
      case UserWriteThrows => Completion(state.(storage := state.storage[TokenKey := token]), Some(StorageError))
      case AllWritten => Completion(state.(storage := state.storage[TokenKey := token][UserKey := serialize(user)]), None)
  }

  /** `register`: the source repeats the body of `login` under another name. */
  function Register(s: AuthState, outcome: ApiOutcome, writes: StorageWrites, serialize: User -> string): (c: Completion)
    ensures outcome.Rejected? ==> c == Completion(s, Some(outcome.reason))
    ensures outcome.Accepted? ==>
      && c.state.token == Some(outcome.token) && c.state.user == Some(outcome.user)
      && c.state.loading == s.loading
      && (c.thrown == None <==> writes == AllWritten)
      && (c.thrown != None ==> c.thrown == Some(StorageError))
    ensures outcome.Accepted? && writes == AllWritten ==>
      && c.state.storage.Keys == s.storage.Keys + {TokenKey, UserKey}
      && c.state.storage[TokenKey] == outcome.token
      && c.state.storage[UserKey] == serialize(outcome.user)
      && forall k :: k in s.storage && k != TokenKey && k != UserKey ==> c.state.storage[k] == s.storage[k]
    ensures outcome.Accepted? && writes == TokenWriteThrows ==> c.state.storage == s.storage
    ensures outcome.Accepted? && writes == UserWriteThrows ==> c.state.storage == s.storage[TokenKey := outcome.token]
  {
    match outcome
    case Rejected(reason) => Completion(s, Some(reason))
    case Accepted(token, user) =>
      var state := s.(token := Some(token), user := Some(user));
      match writes
      case TokenWriteThrows => Completion(state, Some(StorageError))
      case UserWriteThrows => Completion(state.(storage := state.storage[TokenKey := token]), Some(StorageError))
      case AllWritten => Completion(state.(storage := state.storage[TokenKey := token][UserKey := serialize(user)]), None)
  }

  /** `logout`: clear both fields and remove both keys. */
  function Logout(s: AuthState): (r: AuthState)
    ensures r.user == None && r.token == None && r.loading == s.loading
    ensures r.storage.Keys == s.storage.Keys - {TokenKey, UserKey}
    ensures forall k :: k in r.storage ==> r.storage[k] == s.storage[k]
  {
    s.(token := None, user := None, storage := s.storage - {TokenKey, UserKey})
  }

  /** State and storage agree: either both are empty, or the stored token is the state's
      token and the stored user is the state's user serialised. */
  ghost predicate InSync(s: AuthState, serialize: User -> string) {
    || (s.token.None? && s.user.None? && TokenKey !in s.storage && UserKey !in s.storage)
    || (&& s.token.Some? && s.user.Some?
        && TokenKey in s.storage && s.storage[TokenKey] == s.token.value
        && UserKey in s.storage && s.storage[UserKey] == serialize(s.user.value))
  }

  /** A successful `register` has exactly the effect of a successful `login` on state and
      storage, and a failed one rethrows just as a failed `login` does. */
  lemma RegisterActsAsLogin(s: AuthState, outcome: ApiOutcome, writes: StorageWrites, serialize: User -> string)
    ensures Register(s, outcome, writes, serialize) == Login(s, outcome, writes, serialize)
  {
  }

  /** Logout and a login or register whose writes succeed each leave state and storage
      in step, and a rejected attempt keeps whatever agreement there was. */
  lemma ActionsKeepSync(s: AuthState, outcome: ApiOutcome, serialize: User -> string)
    ensures InSync(Logout(s), serialize)
    ensures outcome.Accepted? ==> InSync(Login(s, outcome, AllWritten, serialize).state, serialize)
    ensures InSync(s, serialize) ==> InSync(Login(s, outcome, AllWritten, serialize).state, serialize)
    ensures InSync(s, serialize) ==> InSync(Register(s, outcome, AllWritten, serialize).state, serialize)
    ensures outcome.Rejected? ==> forall w :: Login(s, outcome, w, serialize).state == s
  {
  }

  /** Logging out twice is logging out once. */
  lemma LogoutIdempotent(s: AuthState)
    ensures Logout(Logout(s)) == Logout(s)
  {
  }

  /** Whatever a login stored is restored by the next mount, provided the token is not
      empty (an empty token is falsy and is not restored) and parsing undoes
      serialising. After a logout the next mount restores nothing. */
  lemma PersistenceRoundTrip(s: AuthState, token: string, user: User,
                             serialize: User -> string, parse: string -> Parsed)
    requires token != "" && serialize(user) != ""
    requires parse(serialize(user)) == Decoded(Some(user))
    ensures var stored := Login(s, Accepted(token, user), AllWritten, serialize).state.storage;
      Mount(stored, parse) == Ok(AuthState(Some(user), Some(token), false, stored))
    ensures Mount(Logout(s).storage, parse) == Ok(AuthState(None, None, false, Logout(s).storage))
  {
  }

  /** Being authenticated depends on the user alone: a stored user that parses to JSON
      `null` restores the token but not the session. */
  lemma AuthenticatedIgnoresToken(storage: Storage, parse: string -> Parsed)
    requires Saved(storage, TokenKey) && Saved(storage, UserKey)
    requires parse(storage[UserKey]) == Decoded(None)
    ensures Mount(storage, parse).Ok?
    ensures Mount(storage, parse).value.token.Some? && !IsAuthenticated(Mount(storage, parse).value)
    ensures RendersChildren(Mount(storage, parse).value)
  {
  }

  /** The children wait for the mount effect: they are withheld on the first render,
      shown once the effect has run, and login, register and logout never hide them
      again or reveal them early. */
  lemma ChildrenWaitForMount(storage: Storage, parse: string -> Parsed, s: AuthState,
                             outcome: ApiOutcome, writes: StorageWrites, serialize: User -> string)
    ensures !RendersChildren(FirstRender(storage))
    ensures Mount(storage, parse).Ok? ==> RendersChildren(Mount(storage, parse).value)
    ensures RendersChildren(Login(s, outcome, writes, serialize).state) == RendersChildren(s)
    ensures RendersChildren(Register(s, outcome, writes, serialize).state) == RendersChildren(s)
    ensures RendersChildren(Logout(s)) == RendersChildren(s)
  {
  }

  /** A login whose user write throws leaves the session split: the page shows the new
      user, while the next mount pairs the new token with the user stored before. A login
      whose token write throws is lost on the next mount, which restores the old session. */
  lemma PartialWriteSplitsSession(s: AuthState, token: string, user: User,
                                  serialize: User -> string, parse: string -> Parsed)
    requires InSync(s, serialize) && s.user.Some?
    requires serialize(s.user.value) != "" && s.token.value != ""
    requires parse(serialize(s.user.value)) == Decoded(s.user)
    requires token != ""
    ensures var c := Login(s, Accepted(token, user), UserWriteThrows, serialize);
      && c.thrown == Some(StorageError)
      && c.state.user == Some(user)
      && Mount(c.state.storage, parse) == Ok(AuthState(s.user, Some(token), false, c.state.storage))
    ensures var c := Login(s, Accepted(token, user), TokenWriteThrows, serialize);
      && c.thrown == Some(StorageError)
      && c.state.user == Some(user)
      && Mount(c.state.storage, parse) == Ok(AuthState(s.user, s.token, false, s.storage))
  {
  }
}

=== FILE: auth_routes.dfy ===
/**
  The Express `/register` and `/login` handlers (backend/src/routes/auth.ts)
  as functions from a request and the user table to a reply and the new
  table. Prisma's `user` table is a map keyed by the unique `email` column;
  bcrypt, `jwt.sign`, the email validator and the id Prisma assigns are
  parameters, and `fault` says which awaited call, if any, throws.
*/
module AuthRoutes {
  import opened Common

  datatype UserRow = UserRow(id: string, email: string, passwordHash: string)

  /** The user table, keyed by email. */
  type Users = map<string, UserRow>

  /** The JSON request body; a field may be missing. */
  datatype Credentials = Credentials(email: Option<string>, password: Option<string>)

  /** The only user fields a reply exposes. */
  datatype PublicUser = PublicUser(id: string, email: string)

  datatype Reply =
    | ValidationFailed(errors: seq<string>)                                   // 400 { errors }
    | Refused(message: string)                                                // 400 { message }
    | SignedIn(status: nat, message: string, token: string, user: PublicUser) // 201 or 200
    | ServerError                                                             // 500 "Server error"

  const RegisteredMessage: string := "User registered successfully"
  const LoggedInMessage: string := "Login successful"

  function StatusOf(r: Reply): nat {
    match r
    case ValidationFailed(_) => 400
    case Refused(_) => 400
    case SignedIn(status, _, _, _) => status
    case ServerError => 500
  }

  /** The awaited call that throws, if any. */
  datatype Fault = NoFault | FindFails | HashFails | CreateFails | SignFails | CompareFails

  /** The collaborators the handlers call. */
  datatype Services = Services(
    isEmail: string -> bool,
    salt: string,                         // `bcrypt.genSalt(10)`
    hash: (string, string) -> string,     // `bcrypt.hash(password, salt)`
    compare: (string, string) -> bool,    // `bcrypt.compare(password, hash)`
    sign: (string, string) -> string,     // `jwt.sign({id, email}, secret, {expiresIn: '7d'})`
    newId: string,                        // the id the database assigns
    fault: Fault)

  datatype Handled = Handled(users: Users, reply: Reply)

  const MinPasswordLength: nat := 6
  const BearerPrefix: string := "Bearer "
  const EmailMessage: string := "Please enter a valid email"
  const ShortPasswordMessage: string := "Password must be at least 6 characters"
  const MissingPasswordMessage: string := "Password is required"

  predicate EmailValid(body: Credentials, isEmail: string -> bool) {
    body.email.Some? && isEmail(body.email.value)
  }

  /** The validation messages of `/register`, in declaration order. */
  function RegisterErrors(body: Credentials, isEmail: string -> bool): (errs: seq<string>)
    ensures EmailMessage in errs <==> !EmailValid(body, isEmail)
    ensures ShortPasswordMessage in errs <==> !(body.password.Some? && |body.password.value| >= MinPasswordLength)
    ensures |errs| <= 2
  {
    (if EmailValid(body, isEmail) then [] else [EmailMessage])
    + (if body.password.Some? && |body.password.value| >= MinPasswordLength then [] else [ShortPasswordMessage])
  }

  /** The validation messages of `/login`: any password, even an empty one, exists. */
  function LoginErrors(body: Credentials, isEmail: string -> bool): (errs: seq<string>)
    ensures EmailMessage in errs <==> !EmailValid(body, isEmail)
    ensures MissingPasswordMessage in errs <==> body.password.None?
    ensures |errs| <= 2
  {
    (if EmailValid(body, isEmail) then [] else [EmailMessage])
    + (if body.password.Some? then [] else [MissingPasswordMessage])
  }

  function BearerToken(svc: Services, id: string, email: string): (t: string)
    ensures |t| >= |BearerPrefix| && t[..|BearerPrefix|] == BearerPrefix
  {
    BearerPrefix + svc.sign(id, email)
  }

  /** POST /register. */
  function Register(users: Users, body: Credentials, svc: Services): (h: Handled)
    ensures |RegisterErrors(body, svc.isEmail)| > 0 ==>
      h == Handled(users, ValidationFailed(RegisterErrors(body, svc.isEmail)))
    ensures h.reply == Refused("User already exists") ==> h.users == users
    ensures h.reply.Refused? ==> h.reply.message == "User already exists" && body.email.value in users
    ensures h.users != users ==>
      && body.email.Some? && body.password.Some?
      && body.email.value !in users
      && h.users == users[body.email.value := UserRow(svc.newId, body.email.value, svc.hash(body.password.value, svc.salt))]
    ensures h.reply.SignedIn? ==>
      && h.users != users
      && h.reply.status == 201
      && h.reply.message == RegisteredMessage
      && h.reply.user == PublicUser(svc.newId, body.email.value)
      && h.reply.token == BearerToken(svc, svc.newId, body.email.value)
    // Which valid requests succeed and which are refused or fail.
    ensures |RegisterErrors(body, svc.isEmail)| == 0 && svc.fault == FindFails ==> h == Handled(users, ServerError)
    ensures |RegisterErrors(body, svc.isEmail)| == 0 && svc.fault != FindFails && body.email.value in users ==>
      h == Handled(users, Refused("User already exists"))
    ensures |RegisterErrors(body, svc.isEmail)| == 0 && body.email.value !in users ==>
      && (svc.fault in {HashFails, CreateFails} ==> h == Handled(users, ServerError))
      && (svc.fault == SignFails ==> h.reply == ServerError && h.users != users)
      && (svc.fault in {NoFault, CompareFails} ==> h.reply.SignedIn?)
    ensures StatusOf(h.reply) in {201, 400, 500}
  {
    var errors := RegisterErrors(body, svc.isEmail);
    if |errors| > 0 then Handled(users, ValidationFailed(errors))
    else
      var email, password := body.email.value, body.password.value;
      if svc.fault == FindFails then Handled(users, ServerError)
      else if email in users then Handled(users, Refused("User already exists"))
      else if svc.fault == HashFails || svc.fault == CreateFails then Handled(users, ServerError)
      else
        var row := UserRow(svc.newId, email, svc.hash(password, svc.salt));
        var users' := users[email := row];
        if svc.fault == SignFails then Handled(users', ServerError)
        else Handled(users', SignedIn(201, RegisteredMessage, BearerToken(svc, row.id, row.email),
                                     PublicUser(row.id, row.email)))
  }

  /** POST /login. */
  function Login(users: Users, body: Credentials, svc: Services): (h: Handled)
    ensures h.users == users
    ensures |LoginErrors(body, svc.isEmail)| > 0 ==> h.reply == ValidationFailed(LoginErrors(body, svc.isEmail))
    ensures h.reply.Refused? ==> h.reply.message == "Invalid credentials"
    ensures h.reply.SignedIn? ==>
      && body.email.Some? && body.email.value in users
      && svc.compare(body.password.value, users[body.email.value].passwordHash)
      && h.reply.status == 200
      && h.reply.message == LoggedInMessage
      && h.reply.user == PublicUser(users[body.email.value].id, users[body.email.value].email)
      && h.reply.token == BearerToken(svc, users[body.email.value].id, users[body.email.value].email)
    // Which valid requests succeed and which are refused or fail.
    ensures |LoginErrors(body, svc.isEmail)| == 0 && svc.fault == FindFails ==> h.reply == ServerError
    ensures |LoginErrors(body, svc.isEmail)| == 0 && svc.fault != FindFails && body.email.value !in users ==>
      h.reply == Refused("Invalid credentials")
    ensures |LoginErrors(body, svc.isEmail)| == 0 && body.email.value in users && svc.fault == CompareFails ==>
      h.reply == ServerError
    ensures |LoginErrors(body, svc.isEmail)| == 0 && body.email.value in users && svc.fault !in {FindFails, CompareFails} ==>
      (h.reply == Refused("Invalid credentials") <==> !svc.compare(body.password.value, users[body.email.value].passwordHash))
    ensures |LoginErrors(body, svc.isEmail)| == 0 && svc.fault == SignFails && body.email.value in users
            && svc.compare(body.password.value, users[body.email.value].passwordHash) ==>
      h == Handled(users, ServerError)
    ensures |LoginErrors(body, svc.isEmail)| == 0 && svc.fault !in {FindFails, CompareFails, SignFails} ==>
      (h.reply.SignedIn? <==>
         body.email.value in users && svc.compare(body.password.value, users[body.email.value].passwordHash))
    ensures StatusOf(h.reply) in {200, 400, 500}
  {
    var errors := LoginErrors(body, svc.isEmail);
    if |errors| > 0 then Handled(users, ValidationFailed(errors))
    else
      var email, password := body.email.value, body.password.value;
      if svc.fault == FindFails then Handled(users, ServerError)
      else if email !in users then Handled(users, Refused("Invalid credentials"))
      else
        var row := users[email];
        if svc.fault == CompareFails then Handled(users, ServerError)
        else if !svc.compare(password, row.passwordHash) then Handled(users, Refused("Invalid credentials"))
        else if svc.fault == SignFails then Handled(users, ServerError)
        else Handled(users, SignedIn(200, LoggedInMessage, BearerToken(svc, row.id, row.email),
                                     PublicUser(row.id, row.email)))
  }

  /** The table keeps its key: every row is stored under its own email. */
  ghost predicate KeyedByEmail(users: Users) {
    forall e :: e in users ==> users[e].email == e
  }

  /** Validation is decided before the store is touched: a request that fails it gets
      the same 400 whatever the table holds and whichever later call would throw. */
  lemma ValidationPrecedesStore(u1: Users, u2: Users, body: Credentials, s1: Services, s2: Services)
    requires s1.isEmail == s2.isEmail
    requires |RegisterErrors(body, s1.isEmail)| > 0
    ensures Register(u1, body, s1).reply == Register(u2, body, s2).reply
    ensures Register(u1, body, s1).reply.ValidationFailed?
  {
  }

  /** A successful registration adds exactly one row, stores the bcrypt hash of the
      password rather than the password, keeps the table keyed by email, and signs the
      new user straight in with a "Bearer " token exposing only id and email. */
  lemma RegisterAddsOneUser(users: Users, body: Credentials, svc: Services)
    requires KeyedByEmail(users)
    requires Register(users, body, svc).reply.SignedIn?
    ensures var h := Register(users, body, svc);
      && h.users.Keys == users.Keys + {body.email.value}
      && |h.users| == |users| + 1
      && h.users[body.email.value].passwordHash == svc.hash(body.password.value, svc.salt)
      && (forall e :: e in users ==> h.users[e] == users[e])
      && KeyedByEmail(h.users)
  {
  }

  /** A duplicate email is refused with the table unchanged. */
  lemma DuplicateRefused(users: Users, body: Credentials, svc: Services)
    requires |RegisterErrors(body, svc.isEmail)| == 0
    requires svc.fault != FindFails && body.email.value in users
    ensures Register(users, body, svc) == Handled(users, Refused("User already exists"))
  {
  }

  /** An unknown email and a wrong password are indistinguishable to the caller. */
  lemma LoginFailuresIdentical(users: Users, body: Credentials, svc: Services, other: Credentials)
    requires |LoginErrors(body, svc.isEmail)| == 0 && |LoginErrors(other, svc.isEmail)| == 0
    requires svc.fault == NoFault
    requires body.email.value !in users
    requires other.email.value in users && !svc.compare(other.password.value, users[other.email.value].passwordHash)
    ensures Login(users, body, svc) == Login(users, other, svc)
    ensures Login(users, body, svc).reply == Refused("Invalid credentials")
  {
  }

  /** A user can sign in with the password they registered with, when bcrypt's compare
      accepts the password against its own hash. */
  lemma RegisterThenLogin(users: Users, body: Credentials, svc: Services)
    requires svc.fault == NoFault && Register(users, body, svc).reply.SignedIn?
    requires svc.compare(body.password.value, svc.hash(body.password.value, svc.salt))
    ensures var after := Register(users, body, svc).users;
      Login(after, body, svc).reply == SignedIn(200, LoggedInMessage,
        BearerToken(svc, svc.newId, body.email.value), PublicUser(svc.newId, body.email.value))
  {
  }

  /** A thrown store, bcrypt or jwt call surfaces as 500 "Server error"; only a failed
      `jwt.sign` after the row was created leaves a change behind. */
  lemma FaultsAreServerErrors(users: Users, body: Credentials, svc: Services)
    requires |RegisterErrors(body, svc.isEmail)| == 0
    requires svc.fault in {FindFails, HashFails, CreateFails, SignFails}
    requires svc.fault == FindFails || body.email.value !in users
    ensures Register(users, body, svc).reply == ServerError
    ensures Register(users, body, svc).users != users <==> svc.fault == SignFails
  {
  }

  /** Every thrown login step gives 500 too: the lookup, the bcrypt comparison once the
      email is known, and the signing once the password matched. Nothing is written. */
  lemma LoginFaultsAreServerErrors(users: Users, body: Credentials, svc: Services)
    requires |LoginErrors(body, svc.isEmail)| == 0
    requires svc.fault in {FindFails, CompareFails, SignFails}
    requires svc.fault == FindFails || body.email.value in users
    requires svc.fault == SignFails ==> svc.compare(body.password.value, users[body.email.value].passwordHash)
    ensures Login(users, body, svc) == Handled(users, ServerError)
  {
  }
}

=== FILE: bearer_gate.dfy ===
/**
  The FastAPI backend's authentication dependency `get_current_user` and
  the `/api/v1/auth/me` route (backend/app/main.py). The gate accepts an
  `Authorization: Bearer <token>` credential in the form of section 2.1 of
  RFC 6750, with a case-sensitive prefix, and extracts the token with
  Python's `str.replace`. Firebase's `verify_id_token` is an oracle and the
  Firestore `users` collection is a map from document id to document.
*/
module BearerGate {
  import opened Common
  import opened Json

  const BearerPrefix: string := "Bearer "
  const CredentialsMessage: string := "Invalid authentication credentials"

  /** A user document, and the `users` collection keyed by document id. */
  type Document = map<string, Json>
  type Users = map<string, Document>

  /** `auth.verify_id_token`: the decoded claims, or the exception it raises. */
  datatype Verification = Verified(claims: map<string, Json>) | Invalid(reason: string)

  /** The HTTPException a request is refused with. */
  datatype Refusal = Refusal(status: nat, detail: string)

  /** The incoming request: header names in lower case, as Starlette keeps them. */
  datatype Request = Request(headers: map<string, string>, query: map<string, string>)

  predicate StartsWith(s: string, prefix: string) {
    |prefix| <= |s| && s[..|prefix|] == prefix
  }

  /** `pat` occurs in `s` at position i. */
  predicate OccursAt(s: string, pat: string, i: int) {
    0 <= i && i + |pat| <= |s| && s[i..i + |pat|] == pat
  }

  /** Python's `s.replace(pat, "")`: every non-overlapping occurrence, scanning left
      to right, is removed. */
  function RemoveAll(s: string, pat: string): (r: string)
    requires |pat| > 0
    ensures |r| <= |s|
    ensures StartsWith(s, pat) ==> |r| <= |s| - |pat|
    decreases |s|
  {
    if |s| < |pat| then s
    else if s[..|pat|] == pat then RemoveAll(s[|pat|..], pat)
    else [s[0]] + RemoveAll(s[1..], pat)
  }

  /** The token the gate hands to Firebase. */
  function ExtractToken(authorization: string): (token: string)
    ensures StartsWith(authorization, BearerPrefix) ==> |token| <= |authorization| - |BearerPrefix|
  {
    RemoveAll(authorization, BearerPrefix)
  }

  /** The body of `get_current_user`, given the credential it reads. Every exception
      inside the `try`, including the 404 for a missing user document, is caught
      and re-raised as a 401. */
  function Authenticate(authorization: Option<string>, verify: string -> Verification, users: Users)
    : (r: Result<Document, Refusal>)
    ensures r.Err? ==> r.error.status == 401
    ensures authorization.None? || !StartsWith(authorization.value, BearerPrefix) ==>
      r == Err(Refusal(401, CredentialsMessage))
    ensures r.Ok? ==>
      && authorization.Some? && StartsWith(authorization.value, BearerPrefix)
      && verify(ExtractToken(authorization.value)).Verified?
      && var claims := verify(ExtractToken(authorization.value)).claims;
         && "uid" in claims && claims["uid"].JStr? && claims["uid"].s in users
         && r.value == users[claims["uid"].s]["uid" := claims["uid"]]
  {
    if authorization.None? || authorization.value == "" || !StartsWith(authorization.value, BearerPrefix) then
      Err(Refusal(401, CredentialsMessage))
    else
      var token := ExtractToken(authorization.value);
      match verify(token)
      case Invalid(reason) => Err(Refusal(401, CredentialsMessage + ": " + reason))
      case Verified(claims) =>
        match Lookup(claims, "uid")
        // `document(None)` names a fresh auto-id document, which does not exist.
        case None => Err(Refusal(401, CredentialsMessage + ": 404: User not found"))
        case Some(uid) =>
          if !uid.JStr? then Err(Refusal(401, CredentialsMessage + ": document id must be a string"))
          else if uid.s !in users then Err(Refusal(401, CredentialsMessage + ": 404: User not found"))
          else Ok(users[uid.s]["uid" := uid])
  }

  /** `get_current_user` as declared: a plain `authorization: Optional[str] = None`
      parameter of a dependency is a query parameter in FastAPI, not a header. */
  function CurrentUserAsWritten(req: Request, verify: string -> Verification, users: Users): (r: Result<Document, Refusal>)
    ensures "authorization" !in req.query ==> r == Err(Refusal(401, CredentialsMessage))
  {
    Authenticate(Lookup(req.query, "authorization"), verify, users)
  }

  /** `get_current_user` reading the `Authorization` header, as the Bearer check intends. */
  function CurrentUser(req: Request, verify: string -> Verification, users: Users): (r: Result<Document, Refusal>)
    ensures "authorization" !in req.headers ==> r == Err(Refusal(401, CredentialsMessage))
  {
    Authenticate(Lookup(req.headers, "authorization"), verify, users)
  }

  /** `/api/v1/auth/me`: exactly the four keys, each `user.get(key)` (JSON null when absent). */
  function Me(user: Document): (view: map<string, Json>)
    ensures view.Keys == {"uid", "name", "email", "role"}
    ensures forall k :: k in view ==> view[k] == (if k in user then user[k] else JNull)
  {
    map k | k in {"uid", "name", "email", "role"} :: if k in user then user[k] else JNull
  }

  function MeRoute(req: Request, verify: string -> Verification, users: Users): (r: Result<map<string, Json>, Refusal>)
    ensures r.Err? ==> r.error.status == 401
    ensures r.Ok? ==> r.value.Keys == {"uid", "name", "email", "role"}
  {
    match CurrentUser(req, verify, users)
    case Err(e) => Err(e)
    case Ok(user) => Ok(Me(user))
  }

  /** A string with no occurrence of pat is left as it is. */
  lemma {:induction false} RemoveAllAbsent(s: string, pat: string)
    requires |pat| > 0
    requires forall i :: !OccursAt(s, pat, i)
    ensures RemoveAll(s, pat) == s
    decreases |s|
  {
    if |s| >= |pat| {
      assert !OccursAt(s, pat, 0);
      assert s[..|pat|] != pat;
      forall i | true
        ensures !OccursAt(s[1..], pat, i)
      {
        if OccursAt(s[1..], pat, i) {
          assert s[1..][i..i + |pat|] == s[i + 1..i + 1 + |pat|];
          assert OccursAt(s, pat, i + 1);
        }
      }
      RemoveAllAbsent(s[1..], pat);
      assert s == [s[0]] + s[1..];
    }
  }

  /** For "Bearer " followed by a token that does not itself contain "Bearer ", the
      extracted token is exactly that token. */
  lemma ExtractsPlainToken(t: string)
    requires forall i :: !OccursAt(t, BearerPrefix, i)
    ensures ExtractToken(BearerPrefix + t) == t
  {
    var h := BearerPrefix + t;
    assert h[..|BearerPrefix|] == BearerPrefix;
    assert h[|BearerPrefix|..] == t;
    RemoveAllAbsent(t, BearerPrefix);
  }

  /** Every occurrence is removed, not only the prefix: an occurrence after a stretch
      that cannot start one is cut out, and the scan carries on past it. So
      "Bearer abcBearer def" gives "abcdef". */
  lemma {:induction false} ReplaceRemovesEveryOccurrence(x: string, y: string, pat: string)
    requires |pat| > 0
    requires forall i :: 0 <= i < |x| ==> x[i] != pat[0]
    ensures RemoveAll(x + pat + y, pat) == x + RemoveAll(y, pat)
    decreases |x|
  {
    var s := x + pat + y;
    if |x| == 0 {
      assert s == pat + y;
      assert s[..|pat|] == pat && s[|pat|..] == y;
    } else {
      var rest := x[1..] + pat + y;
      assert s == [x[0]] + rest;
      assert s[..|pat|] != pat by {
        assert s[..|pat|][0] == x[0] != pat[0];
      }
      assert s[1..] == rest;
      assert RemoveAll(s, pat) == [x[0]] + RemoveAll(rest, pat);
      ReplaceRemovesEveryOccurrence(x[1..], y, pat);
      assert x == [x[0]] + x[1..];
    }
  }

  /** The header form is checked before Firebase is consulted: a refused header gets the
      same 401 whatever the verifier and the collection hold. */
  lemma HeaderCheckedFirst(authorization: Option<string>, v1: string -> Verification, v2: string -> Verification,
                           u1: Users, u2: Users)
    requires authorization.None? || !StartsWith(authorization.value, BearerPrefix)
    ensures Authenticate(authorization, v1, u1) == Authenticate(authorization, v2, u2)
  {
  }

  /** A verified token whose uid has no user document is refused with 401, not 404:
      the 404 raised inside the `try` is caught by the broad `except`. */
  lemma MissingUserIs401(authorization: string, verify: string -> Verification, users: Users, uid: string)
    requires StartsWith(authorization, BearerPrefix)
    requires verify(ExtractToken(authorization)) == Verified(map["uid" := JStr(uid)])
    requires uid !in users
    ensures Authenticate(Some(authorization), verify, users).Err?
    ensures Authenticate(Some(authorization), verify, users).error.status == 401
  {
  }

  /** A valid credential yields the stored document with `uid` set to the token's uid, and
      `/auth/me` reports that uid with the document's name, email and role. */
  lemma MeReportsTokenUid(t: string, verify: string -> Verification, users: Users, uid: string, headers: map<string, string>)
    requires forall i :: !OccursAt(t, BearerPrefix, i)
    requires verify(t).Verified? && Lookup(verify(t).claims, "uid") == Some(JStr(uid)) && uid in users
    requires Lookup(headers, "authorization") == Some(BearerPrefix + t)
    ensures var r := MeRoute(Request(headers, map[]), verify, users);
      && r.Ok?
      && r.value["uid"] == JStr(uid)
      && r.value["name"] == (if "name" in users[uid] then users[uid]["name"] else JNull)
      && r.value["email"] == (if "email" in users[uid] then users[uid]["email"] else JNull)
      && r.value["role"] == (if "role" in users[uid] then users[uid]["role"] else JNull)
  {
    ExtractsPlainToken(t);
    assert StartsWith(BearerPrefix + t, BearerPrefix);
  }

  /** As declared, the gate refuses a well-formed `Authorization: Bearer` header that the
      intended gate accepts, because it looks for the credential in the query string. */
  lemma HeaderIgnoredAsWritten(t: string, verify: string -> Verification, users: Users, uid: string)
    requires forall i :: !OccursAt(t, BearerPrefix, i)
    requires verify(t) == Verified(map["uid" := JStr(uid)]) && uid in users
    ensures var req := Request(map["authorization" := BearerPrefix + t], map[]);
      && CurrentUserAsWritten(req, verify, users) == Err(Refusal(401, CredentialsMessage))
      && CurrentUser(req, verify, users) == Ok(users[uid]["uid" := JStr(uid)])
  {
    ExtractsPlainToken(t);
    assert StartsWith(BearerPrefix + t, BearerPrefix);
  }
}

=== FILE: common.dfy ===
/** Small failure-carrying datatypes shared by every module of the model. */
module Common {

  /** A value that may be absent: JavaScript `null`/`undefined`, Python `None`. */
  datatype Option<+T> = None | Some(value: T)

  /** The outcome of an operation that can fail with an error of type E. */
  datatype Result<+T, +E> = Ok(value: T) | Err(error: E)

  /** Looking a key up in a key/value store, absent keys giving None. */
  function Lookup<K, V>(m: map<K, V>, k: K): (r: Option<V>)
    ensures r.Some? <==> k in m
    ensures r.Some? ==> r.value == m[k]
  {
    if k in m then Some(m[k]) else None
  }
}

=== FILE: dashboard.dfy ===
/**
  The risk bands of the dashboard (src/components/dashboard/Dashboard.tsx).
  A risk score is split three ways at 0.3 and 0.6. The split is written
  out four separate times in the source: the `getRiskColor` helper, the
  ring's stroke colour, the text colour class and the label under the
  percentage. Each is modelled here as the source writes it, and each
  contract ties it to the one classification `Classify`.
*/
module Dashboard {
  import opened Common

  datatype Band = Low | Moderate | High

  /** Lower bound of the moderate band, inclusive. */
  const ModerateFrom: real := 0.3
  /** Lower bound of the high band, inclusive. */
  const HighFrom: real := 0.6
  /** Circumference of the score ring (radius 45), the SVG dash array. */
  const RingLength: real := 282.7

  /** Bands in increasing order of risk. */
  function Rank(b: Band): nat {
    match b
    case Low => 0
    case Moderate => 1
    case High => 2
  }

  /** The reference classification: below 0.3 low, below 0.6 moderate, otherwise high. */
  function Classify(score: real): (b: Band)
    ensures b == Low <==> score < ModerateFrom
    ensures b == Moderate <==> ModerateFrom <= score < HighFrom
    ensures b == High <==> HighFrom <= score
  {
    if score < ModerateFrom then Low
    else if score < HighFrom then Moderate
    else High
  }

  // The colour and wording each band is shown with, one table per place.

  function BackgroundClass(b: Band): string {
    match b
    case Low => "bg-green-500"
    case Moderate => "bg-yellow-500"
    case High => "bg-red-500"
  }

  function StrokeHex(b: Band): string {
    match b
    case Low => "#22c55e"
    case Moderate => "#eab308"
    case High => "#ef4444"
  }

  function TextClass(b: Band): string {
    match b
    case Low => "text-green-600"
    case Moderate => "text-yellow-600"
    case High => "text-red-600"
  }

  function Label(b: Band): string {
    match b
    case Low => "Low Risk"
    case Moderate => "Moderate Risk"
    case High => "High Risk"
  }

  /** `getRiskColor`: two early returns, then the red default. */
  function RiskColor(score: real): (c: string)
    ensures c == BackgroundClass(Classify(score))
  {
    if score < 0.3 then "bg-green-500"
    else if score < 0.6 then "bg-yellow-500"
    else "bg-red-500"
  }

  /** The ring's inline `stroke` expression. */
  function RingStroke(score: real): (c: string)
    ensures c == StrokeHex(Classify(score))
  {
    if score < 0.3 then "#22c55e" else if score < 0.6 then "#eab308" else "#ef4444"
  }

  /** The inline text colour class of the label. */
  function LabelTextClass(score: real): (c: string)
    ensures c == TextClass(Classify(score))
  {
    if score < 0.3 then "text-green-600" else if score < 0.6 then "text-yellow-600" else "text-red-600"
  }

  /** The inline label text. */
  function RiskLabel(score: real): (l: string)
    ensures l == Label(Classify(score))
  {
    if score < 0.3 then "Low Risk" else if score < 0.6 then "Moderate Risk" else "High Risk"
  }

  /** The ring's dash offset: the unfilled part of the circumference. */
  function DashOffset(score: real): (r: real)
    ensures 0.0 <= score <= 1.0 ==> 0.0 <= r <= RingLength
    ensures r == 0.0 <==> score == 1.0
    ensures r == RingLength <==> score == 0.0
  {
    282.7 * (1.0 - score)
  }

  // The trend bars (Dashboard.tsx:102-107) carry the class `bg-muted` and an inline
  // `backgroundColor`. What a browser paints is modelled only as far as it is certain:
  // a `#rrggbb` value is a colour and wins over the class; a value that no CSS colour
  // can have is dropped, and the class's fill shows.

  /** The class fill the trend bars are given. */
  const MutedFill: string := "bg-muted"

  predicate IsHexDigit(c: char) {
    '0' <= c <= '9' || 'a' <= c <= 'f' || 'A' <= c <= 'F'
  }

  predicate IsLetter(c: char) {
    'a' <= c <= 'z' || 'A' <= c <= 'Z'
  }

  /** `#rrggbb`: a valid CSS colour. */
  predicate HexColor(v: string) {
    |v| == 7 && v[0] == '#' && forall i :: 1 <= i < 7 ==> IsHexDigit(v[i])
  }

  /** A shape every CSS colour value has: a hex colour starts with '#', a functional
      notation (`rgb(...)`, `var(...)`) has a '(', and a keyword (a named colour,
      `transparent`, `currentcolor`, a system colour, a CSS-wide keyword) is letters
      only, except `revert-layer` and the vendor keywords such as `-webkit-link`,
      which start with '-'. Whitespace around any of these is allowed, so a value with
      whitespace in it is counted as colour-shaped too. */
  predicate ColorShaped(v: string) {
    || (|v| > 0 && (v[0] == '#' || v[0] == '-'))
    || '(' in v
    || v == "revert-layer"
    || (exists i :: 0 <= i < |v| && IsSpace(v[i]))
    || forall i :: 0 <= i < |v| ==> IsLetter(v[i])
  }

  /** CSS whitespace: space, tab, line feed, carriage return and form feed. */
  predicate IsSpace(c: char) {
    c == ' ' || c == '\t' || c == '\n' || c == '\r' || c == '\U{000C}'
  }

  /** The fill a browser paints for an inline `backgroundColor` over a class fill:
      Some(the inline colour), Some(the class) when the declaration is dropped, and
      None for values this model does not decide. */
  function Painted(inline: string, classFill: string): (fill: Option<string>)
    ensures HexColor(inline) ==> fill == Some(inline)
    ensures !ColorShaped(inline) ==> fill == Some(classFill)
  {
    if HexColor(inline) then Some(inline)
    else if !ColorShaped(inline) then Some(classFill)
    else None
  }

  /** A trend bar as written: `getRiskColor`'s class name is passed as the inline
      colour, so the bar keeps the muted fill whatever its score. */
  function TrendBarAsWritten(score: real): (fill: Option<string>)
    ensures fill == Some(MutedFill)
  {
    ClassNamesAreNotColors(score);
    Painted(RiskColor(score), MutedFill)
  }

  /** A trend bar as intended: the band's colour as a colour value. The ring's hex
      colours are Tailwind's green-, yellow- and red-500, the very colours of the
      `bg-*-500` classes `getRiskColor` names. */
  function TrendBar(score: real): (fill: Option<string>)
    ensures fill == Some(StrokeHex(Classify(score)))
  {
    Painted(StrokeHex(Classify(score)), MutedFill)
  }

  /** Every class name `getRiskColor` returns has a '-' and no '(', so it cannot be a
      CSS colour. */
  lemma ClassNamesAreNotColors(score: real)
    ensures !ColorShaped(RiskColor(score))
  {
    var c := RiskColor(score);
    assert c[2] == '-' && !IsLetter(c[2]);
    assert '(' !in c by {
      if score < 0.3 { assert c == "bg-green-500"; }
      else if score < 0.6 { assert c == "bg-yellow-500"; }
      else { assert c == "bg-red-500"; }
    }
  }

  /** As written, no trend bar shows its band: any two bars look the same, such as a
      low-risk bar at 0.15 and a high-risk one at 0.9, while the intended bars differ. */
  lemma TrendBarIgnoresBand(score: real, other: real)
    ensures TrendBarAsWritten(score) == TrendBarAsWritten(other)
    ensures Classify(0.15) == Low && Classify(0.9) == High
    ensures TrendBarAsWritten(0.15) == TrendBarAsWritten(0.9) && TrendBar(0.15) != TrendBar(0.9)
  {
  }

  /** As intended, a trend bar is painted in its band's colour, the ring's colour for
      the same score, and bars in different bands differ. */
  lemma TrendBarShowsBand(score: real, other: real)
    ensures TrendBar(score) == Some(RingStroke(score))
    ensures Classify(score) != Classify(other) ==> TrendBar(score) != TrendBar(other)
  {
  }

  /** Classification is monotone: a higher score never gives a lower band. */
  lemma ClassifyMonotone(lo: real, hi: real)
    requires lo <= hi
    ensures Rank(Classify(lo)) <= Rank(Classify(hi))
  {
  }

  /** The boundaries belong to the upper band. */
  lemma BoundariesBelongAbove()
    ensures Classify(0.3) == Moderate && Classify(0.6) == High
    ensures forall s :: s < 0.3 ==> Classify(s) == Low
  {
  }

  /** The four places that display a band tell the same story: the colours and the label
      all belong to one band, and distinct bands are told apart in every place. */
  lemma DisplaysAgree(score: real, other: real)
    ensures var b := Classify(score);
      && RiskColor(score) == BackgroundClass(b)
      && RingStroke(score) == StrokeHex(b)
      && LabelTextClass(score) == TextClass(b)
      && RiskLabel(score) == Label(b)
    ensures Classify(score) != Classify(other) ==>
      && RiskColor(score) != RiskColor(other)
      && RingStroke(score) != RingStroke(other)
      && LabelTextClass(score) != LabelTextClass(other)
      && RiskLabel(score) != RiskLabel(other)
  {
  }
}

=== FILE: json.dfy ===
/**
  JSON values as the JavaScript handlers see them, with the two pieces of
  JavaScript semantics the handlers depend on: truthiness (`!x`) and
  property access (`x.k`), which yields `undefined` for a missing key and
  throws a TypeError on `null`.
*/
module Json {
  import opened Common

  datatype Json =
    | JNull
    | JBool(b: bool)
    | JNum(n: real)
    | JStr(s: string)
    | JArr(items: seq<Json>)
    | JObj(fields: map<string, Json>)

  /** A possibly `undefined` JavaScript value: None is `undefined`. */
  type JsValue = Option<Json>

  /** JavaScript truthiness: `undefined`, `null`, `false`, `0` and `""` are falsy;
      every array and object, even an empty one, is truthy. */
  const Falsy: set<JsValue> := {None, Some(JNull), Some(JBool(false)), Some(JNum(0.0)), Some(JStr(""))}

  function Truthy(v: JsValue): (b: bool)
    ensures !b <==> v in Falsy
    ensures v == Some(JBool(true)) ==> b
    ensures v == None || v == Some(JNull) || v == Some(JBool(false)) || v == Some(JNum(0.0)) || v == Some(JStr("")) ==> !b
    ensures v.Some? && (v.value.JArr? || v.value.JObj?) ==> b
    ensures v.Some? && v.value.JNum? && v.value.n != 0.0 ==> b
    ensures v.Some? && v.value.JStr? && v.value.s != "" ==> b
  {
    match v
    case None => false
    case Some(JNull) => false
    case Some(JBool(b)) => b
    case Some(JNum(n)) => n != 0.0
    case Some(JStr(s)) => s != ""
    case Some(JArr(_)) => true
    case Some(JObj(_)) => true
  }

  /** The TypeError raised by reading property `key` of `null` or `undefined`
      (`receiver` is the word V8 prints for the value). */
  datatype TypeError = PropertyOfNull(receiver: string, key: string)

  const MessageHead: string := "Cannot read properties of "
  const KeyOpen: string := " (reading '"
  const KeyClose: string := "')"

  /** V8's message for the error: the fixed head, the receiver, then the key quoted
      inside "(reading '…')". */
  function Message(e: TypeError): (m: string)
    ensures |m| == |MessageHead| + |e.receiver| + |KeyOpen| + |e.key| + |KeyClose|
    ensures m[..|MessageHead|] == MessageHead
    ensures m[|MessageHead|..|MessageHead| + |e.receiver|] == e.receiver
    ensures m[|MessageHead| + |e.receiver|..|MessageHead| + |e.receiver| + |KeyOpen|] == KeyOpen
    ensures m[|m| - |KeyClose| - |e.key|..|m| - |KeyClose|] == e.key
    ensures m[|m| - |KeyClose|..] == KeyClose
  {
    MessageHead + e.receiver + KeyOpen + e.key + KeyClose
  }

  /** The message determines the error: with the receiver known (it is "null" or
      "undefined"), the key is read back from it. */
  lemma MessageNamesKey(e1: TypeError, e2: TypeError)
    requires e1.receiver == e2.receiver
    requires Message(e1) == Message(e2)
    ensures e1 == e2
  {
    var m := Message(e1);
    assert e1.key == m[|m| - |KeyClose| - |e1.key|..|m| - |KeyClose|];
  }

  /** `v.key` for an own data key of a plain object: a missing key gives `undefined`,
      and `null` and `undefined` throw. Properties that come from a prototype (an
      array's or string's `length` and indices, `Object.prototype` names such as
      `constructor`) are not modelled and read as `undefined`. */
  function Member(v: JsValue, key: string): (r: Result<JsValue, TypeError>)
    ensures r.Err? <==> v == None || v == Some(JNull)
    ensures r.Err? ==> r.error == PropertyOfNull(if v.None? then "undefined" else "null", key)
    ensures v.Some? && v.value.JObj? ==> r == Ok(Lookup(v.value.fields, key))
    ensures r.Ok? && r.value.Some? ==> v.Some? && v.value.JObj? && key in v.value.fields
  {
    match v
    case None => Err(PropertyOfNull("undefined", key))
    case Some(JNull) => Err(PropertyOfNull("null", key))
    case Some(JObj(fields)) => Ok(Lookup(fields, key))
    case Some(_) => Ok(None)
  }
}

=== FILE: ml_service.dfy ===
/**
  The ML service's account and assessment handlers (ml_service/main.py).
  The Mongo `users` and `assessments` collections are sequences in their
  natural order (`find_one` returns the first match); passlib's bcrypt is
  the `hash`/`verify` parameters; the uuid4 and `utcnow()` values are
  parameters. Times are whole seconds since the epoch.

  Access tokens are modelled by their claims: `Signed(claims)` is what
  `jwt.encode` produced with the service's key, `Garbled` is any string
  that fails to decode. Decoding applies the claim checks python-jose's
  `jwt.decode` makes with its default options and no audience: `iat`
  must be an integer, `nbf` an integer not after now, `exp` (section
  4.1.4 of RFC 7519) an integer not before now, so a token is still
  accepted at `exp` itself; `sub` and `jti` must be strings; any `aud`
  or `at_hash` claim is refused, since no audience and no access token
  are passed to compare it with.
*/
module MlService {
  import opened Common
  import Ordering

  const AccessTokenExpireMinutes: int := 30
  const DefaultExpireMinutes: int := 15
  const DefaultRole: string := "patient"
  const PendingStatus: string := "pending"

  /** A stored user document. */
  datatype UserInDb = UserInDb(id: string, email: string, name: string, role: string, hashedPassword: string, createdAt: int)

  /** The `User` response model: the document without its password hash. */
  datatype User = User(id: string, email: string, name: string, role: string, createdAt: int)

  /** The `UserCreate` body; `role` may be omitted. */
  datatype UserCreate = UserCreate(email: string, password: string, name: string, role: Option<string>)

  /** The OAuth2 password form; `username` carries the email. */
  datatype LoginForm = LoginForm(username: string, password: string)

  datatype Claim = ClaimStr(s: string) | ClaimInt(n: int)
  type Claims = map<string, Claim>

  datatype Token = Signed(claims: Claims) | Garbled(text: string)

  datatype TokenReply = TokenReply(accessToken: Token, tokenType: string)

  /** The HTTPException a request is refused with. */
  datatype HttpError = HttpError(status: nat, detail: string)

  /** The reasons python-jose refuses to decode a token. */
  datatype JwtError = Undecodable | Expired | NotYetValid | BadClaim(name: string)

  function PublicView(u: UserInDb): (v: User)
    ensures v.id == u.id && v.email == u.email && v.name == u.name && v.role == u.role && v.createdAt == u.createdAt
  {
    User(u.id, u.email, u.name, u.role, u.createdAt)
  }

  /** `find_one({"email": email})`: the first document with that email. */
  function FindByEmail(users: seq<UserInDb>, email: string): (r: Option<UserInDb>)
    ensures r.None? <==> forall i :: 0 <= i < |users| ==> users[i].email != email
    ensures r.Some? ==> exists i :: 0 <= i < |users| && users[i] == r.value
                          && r.value.email == email && forall j :: 0 <= j < i ==> users[j].email != email
  {
    if |users| == 0 then None
    else if users[0].email == email then Some(users[0])
    else
      var r := FindByEmail(users[1..], email);
      if r.Some? then
        var i :| 0 <= i < |users[1..]| && users[1..][i] == r.value && forall j :: 0 <= j < i ==> users[1..][j].email != email;
        assert users[i + 1] == r.value;
        r
      else r
  }

  /** `find_one({"id": id})`: the first document with that id. */
  function FindById(users: seq<UserInDb>, id: string): (r: Option<UserInDb>)
    ensures r.None? <==> forall i :: 0 <= i < |users| ==> users[i].id != id
    ensures r.Some? ==> r.value in users && r.value.id == id
  {
    if |users| == 0 then None
    else if users[0].id == id then Some(users[0])
    else FindById(users[1..], id)
  }

  /** `authenticate_user`: the user when the email is known and the password matches, else False. */
  function AuthenticateUser(users: seq<UserInDb>, email: string, password: string,
                            verify: (string, string) -> bool): (r: Option<UserInDb>)
    ensures r.Some? <==> FindByEmail(users, email).Some? && verify(password, FindByEmail(users, email).value.hashedPassword)
    ensures r.Some? ==> r == FindByEmail(users, email) && r.value.email == email
  {
    match FindByEmail(users, email)
    case None => None
    case Some(user) => if verify(password, user.hashedPassword) then Some(user) else None
  }

  /** The lifetime a token is issued with, in seconds: a truthy (non-zero) timedelta is
      used as given, a missing or zero one falls back to 15 minutes. */
  function Lifetime(expiresDelta: Option<int>): (seconds: int)
    ensures seconds != 0
    ensures expiresDelta.None? || expiresDelta == Some(0) ==> seconds == DefaultExpireMinutes * 60
    ensures expiresDelta.Some? && expiresDelta.value != 0 ==> seconds == expiresDelta.value
  {
    if expiresDelta.Some? && expiresDelta.value != 0 then expiresDelta.value else DefaultExpireMinutes * 60
  }

  /** `create_access_token`: a copy of the claims with `exp` set. */
  function CreateAccessToken(data: Claims, expiresDelta: Option<int>, now: int): (t: Token)
    ensures t.Signed?
    ensures t.claims.Keys == data.Keys + {"exp"}
    ensures forall k :: k in data && k != "exp" ==> t.claims[k] == data[k]
    ensures expiresDelta.None? || expiresDelta == Some(0) ==> t.claims["exp"] == ClaimInt(now + 900)
    ensures expiresDelta.Some? && expiresDelta.value != 0 ==> t.claims["exp"] == ClaimInt(now + expiresDelta.value)
  {
    Signed(data["exp" := ClaimInt(now + Lifetime(expiresDelta))])
  }

  /** A registered time claim that, if present, is an integer satisfying `ok`. */
  predicate TimeClaim(claims: Claims, name: string, ok: int -> bool) {
    name in claims ==> claims[name].ClaimInt? && ok(claims[name].n)
  }

  /** A claim that, if present, is a string. */
  predicate StringClaim(claims: Claims, name: string) {
    name in claims ==> claims[name].ClaimStr?
  }

  /** The claim sets python-jose accepts at time `now` when decoding with its default
      options, no audience and no access token. */
  predicate Acceptable(claims: Claims, now: int) {
    && TimeClaim(claims, "iat", _ => true)
    && TimeClaim(claims, "nbf", nbf => nbf <= now)
    && TimeClaim(claims, "exp", exp => now <= exp)
    && "aud" !in claims && "at_hash" !in claims
    && StringClaim(claims, "sub") && StringClaim(claims, "jti")
  }

  /** `jwt.decode`: the signature, then the claim checks in python-jose's order
      (iat, nbf, exp, aud, sub, jti, at_hash). */
  function Decode(token: Token, now: int): (r: Result<Claims, JwtError>)
    ensures r.Ok? <==> token.Signed? && Acceptable(token.claims, now)
    ensures r.Ok? ==> r.value == token.claims
    ensures r == Err(Undecodable) <==> token.Garbled?
    ensures r == Err(Expired) ==>
      token.Signed? && "exp" in token.claims && token.claims["exp"].ClaimInt? && token.claims["exp"].n < now
    ensures r == Err(NotYetValid) ==>
      token.Signed? && "nbf" in token.claims && token.claims["nbf"].ClaimInt? && token.claims["nbf"].n > now
    ensures token.Signed? && "exp" in token.claims && token.claims["exp"].ClaimInt? && token.claims["exp"].n < now ==>
      r.Err?
  {
    match token
    case Garbled(_) => Err(Undecodable)
    case Signed(claims) =>
      if "iat" in claims && !claims["iat"].ClaimInt? then Err(BadClaim("iat"))
      else if "nbf" in claims && !claims["nbf"].ClaimInt? then Err(BadClaim("nbf"))
      else if "nbf" in claims && claims["nbf"].n > now then Err(NotYetValid)
      else if "exp" in claims && !claims["exp"].ClaimInt? then Err(BadClaim("exp"))
      else if "exp" in claims && claims["exp"].n < now then Err(Expired)
      else if "aud" in claims then Err(BadClaim("aud"))
      else if "sub" in claims && !claims["sub"].ClaimStr? then Err(BadClaim("sub"))
      else if "jti" in claims && !claims["jti"].ClaimStr? then Err(BadClaim("jti"))
      else if "at_hash" in claims then Err(BadClaim("at_hash"))
      else Ok(claims)
  }

  const CredentialsError: HttpError := HttpError(401, "Could not validate credentials")
  const NotAuthenticated: HttpError := HttpError(401, "Not authenticated")

  /** ASCII lower case. Python's `str.lower` also maps other letters, but none of them
      to a letter of "bearer", so comparing with "bearer" is unaffected. */
  function Lower(s: string): (r: string)
    ensures |r| == |s|
    ensures forall i :: 0 <= i < |s| ==> r[i] == if 'A' <= s[i] <= 'Z' then (s[i] as int + 32) as char else s[i]
  {
    if |s| == 0 then [] else
      [if 'A' <= s[0] <= 'Z' then (s[0] as int + 32) as char else s[0]] + Lower(s[1..])
  }

  /** The text before a separator and the text after it. */
  datatype Split = Split(before: string, after: string)

  /** `str.partition(" ")`: the text before the first space and the text after it. */
  function PartitionAtSpace(s: string): (r: Split)
    ensures ' ' !in r.before
    ensures ' ' in s ==> s == r.before + " " + r.after
    ensures ' ' !in s ==> r == Split(s, "")
  {
    if |s| == 0 then Split("", "")
    else if s[0] == ' ' then Split("", s[1..])
    else
      var rest := PartitionAtSpace(s[1..]);
      assert s == [s[0]] + s[1..];
      Split([s[0]] + rest.before, rest.after)
  }

  /** A header made of a "bearer" scheme in any case, a space and a token. */
  ghost predicate BearerWithToken(header: string) {
    exists scheme: string, token: string ::
      header == scheme + " " + token && ' ' !in scheme && Lower(scheme) == "bearer"
  }

  /** `OAuth2PasswordBearer`: the `Authorization` header must be present, non-empty and
      have a scheme that is "bearer" in any case; the token is everything after the
      first space, and empty when there is none. Anything else is 401 "Not
      authenticated", before the token is looked at. */
  function BearerScheme(authorization: Option<string>): (r: Result<string, HttpError>)
    ensures r.Err? ==> r.error == NotAuthenticated
    ensures r.Ok? <==>
      authorization.Some? && (BearerWithToken(authorization.value) || Lower(authorization.value) == "bearer")
    ensures r.Ok? && ' ' !in authorization.value ==> r.value == ""
    ensures r.Ok? && ' ' in authorization.value ==>
      exists scheme: string :: authorization.value == scheme + " " + r.value && ' ' !in scheme && Lower(scheme) == "bearer"
  {
    if authorization.None? || authorization.value == "" then Err(NotAuthenticated)
    else
      var Split(scheme, token) := PartitionAtSpace(authorization.value);
      if Lower(scheme) != "bearer" then
        NoBearerScheme(authorization.value);
        if ' ' in authorization.value then
          SpacedIsNotBearer(authorization.value);
          Err(NotAuthenticated)
        else
          Err(NotAuthenticated)
      else
        assert ' ' in authorization.value ==> authorization.value == scheme + " " + token;
        Ok(token)
  }

  /** A header whose text before its first space is not "bearer" in any case has no
      split into such a scheme and a token. */
  lemma NoBearerScheme(header: string)
    requires Lower(PartitionAtSpace(header).before) != "bearer"
    ensures !BearerWithToken(header)
  {
    forall scheme: string, token: string | header == scheme + " " + token && ' ' !in scheme
      ensures Lower(scheme) != "bearer"
    {
      FirstSpaceSplit(scheme, token);
    }
  }

  /** Lower case keeps spaces, so a header with a space never reads as "bearer". */
  lemma SpacedIsNotBearer(header: string)
    requires ' ' in header
    ensures Lower(header) != "bearer"
  {
    var i :| 0 <= i < |header| && header[i] == ' ';
    assert Lower(header)[i] == ' ';
  }

  /** Both spellings of the scheme the client and the service use read as "bearer". */
  lemma LowerBearer()
    ensures Lower("Bearer") == "bearer" && Lower("bearer") == "bearer"
  {
    var up, low := Lower("Bearer"), Lower("bearer");
    assert up[0] == 'b' && up[1] == 'e' && up[2] == 'a' && up[3] == 'r' && up[4] == 'e' && up[5] == 'r';
    assert low[0] == 'b' && low[1] == 'e' && low[2] == 'a' && low[3] == 'r' && low[4] == 'e' && low[5] == 'r';
  }

  /** Splitting at a space preceded by no other space is what `partition` does. */
  lemma {:induction false} FirstSpaceSplit(scheme: string, token: string)
    requires ' ' !in scheme
    ensures PartitionAtSpace(scheme + " " + token) == Split(scheme, token)
  {
    if |scheme| == 0 {
      assert (scheme + " " + token)[1..] == token;
    } else {
      assert (scheme + " " + token)[1..] == scheme[1..] + " " + token;
      FirstSpaceSplit(scheme[1..], token);
      assert scheme == [scheme[0]] + scheme[1..];
    }
  }

  /** `get_current_user`: 401 for a token that does not decode, that has no `sub`, or whose
      `sub` names no user. */
  function GetCurrentUser(token: Token, now: int, users: seq<UserInDb>): (r: Result<User, HttpError>)
    ensures r.Err? ==> r.error == CredentialsError
    ensures r.Ok? <==>
      && Decode(token, now).Ok? && "sub" in token.claims
      && FindById(users, token.claims["sub"].s).Some?
    ensures r.Ok? ==> r.value == PublicView(FindById(users, token.claims["sub"].s).value)
  {
    match Decode(token, now)
    case Err(_) => Err(CredentialsError)
    case Ok(claims) =>
      if "sub" !in claims then Err(CredentialsError)
      else
        match FindById(users, claims["sub"].s)
        case None => Err(CredentialsError)
        case Some(user) => Ok(PublicView(user))
  }

  /** The `role` field with the model's default "patient" when the body leaves it out. */
  function RoleOf(req: UserCreate): (role: string)
    ensures req.role.None? ==> role == DefaultRole
    ensures req.role.Some? ==> role == req.role.value
  {
    if req.role.Some? then req.role.value else DefaultRole
  }

  /** The `users` collection after a registration, and the reply. */
  datatype Registered = Registered(users: seq<UserInDb>, reply: Result<User, HttpError>)

  /** POST /api/v1/auth/register. */
  function Register(users: seq<UserInDb>, req: UserCreate, newId: string, now: int,
                    hash: string -> string): (r: Registered)
    ensures FindByEmail(users, req.email).Some? <==> r.reply.Err?
    ensures r.reply.Err? ==> r.users == users && r.reply.error == HttpError(400, "Email already registered")
    ensures r.reply.Ok? ==>
      && r.users == users + [UserInDb(newId, req.email, req.name, RoleOf(req), hash(req.password), now)]
      && r.reply.value == User(newId, req.email, req.name, RoleOf(req), now)
  {
    if FindByEmail(users, req.email).Some? then Registered(users, Err(HttpError(400, "Email already registered")))
    else
      var doc := UserInDb(newId, req.email, req.name, RoleOf(req), hash(req.password), now);
      Registered(users + [doc], Ok(User(doc.id, doc.email, doc.name, doc.role, doc.createdAt)))
  }

  /** POST /api/v1/auth/login. */
  function LoginForAccessToken(users: seq<UserInDb>, form: LoginForm, verify: (string, string) -> bool, now: int)
    : (r: Result<TokenReply, HttpError>)
    ensures r.Err? <==> AuthenticateUser(users, form.username, form.password, verify).None?
    ensures r.Err? ==> r.error == HttpError(401, "Incorrect email or password")
    ensures r.Ok? ==>
      var user := AuthenticateUser(users, form.username, form.password, verify).value;
      && r.value.tokenType == "bearer"
      && r.value.accessToken == Signed(map["sub" := ClaimStr(user.id), "exp" := ClaimInt(now + AccessTokenExpireMinutes * 60)])
  {
    match AuthenticateUser(users, form.username, form.password, verify)
    case None => Err(HttpError(401, "Incorrect email or password"))
    case Some(user) =>
      var token := CreateAccessToken(map["sub" := ClaimStr(user.id)], Some(AccessTokenExpireMinutes * 60), now);
      Ok(TokenReply(token, "bearer"))
  }

  /** No two documents share an email. */
  ghost predicate EmailsUnique(users: seq<UserInDb>) {
    forall i, j :: 0 <= i < j < |users| ==> users[i].email != users[j].email
  }

  /** No two documents share an id. */
  ghost predicate IdsUnique(users: seq<UserInDb>) {
    forall i, j :: 0 <= i < j < |users| ==> users[i].id != users[j].id
  }

  /** Registration never creates a second account for an email, and with a fresh uuid it
      never reuses an id; the response never carries the password hash. */
  lemma RegisterKeepsAccountsUnique(users: seq<UserInDb>, req: UserCreate, newId: string, now: int, hash: string -> string)
    requires EmailsUnique(users)
    ensures EmailsUnique(Register(users, req, newId, now, hash).users)
    ensures IdsUnique(users) && (forall i :: 0 <= i < |users| ==> users[i].id != newId) ==>
      IdsUnique(Register(users, req, newId, now, hash).users)
    ensures |Register(users, req, newId, now, hash).users| <= |users| + 1
  {
  }

  /** A role left out of the request defaults to "patient". */
  lemma RoleDefaultsToPatient(users: seq<UserInDb>, email: string, password: string, name: string,
                              newId: string, now: int, hash: string -> string)
    requires FindByEmail(users, email).None?
    ensures Register(users, UserCreate(email, password, name, None), newId, now, hash).reply == Ok(User(newId, email, name, "patient", now))
  {
  }

  /** A zero timedelta is falsy, so it also falls back to 15 minutes; a negative one is
      truthy and issues a token that has already expired. */
  lemma ZeroDeltaFallsBack(data: Claims, now: int, id: string)
    ensures CreateAccessToken(data, Some(0), now) == CreateAccessToken(data, None, now)
    ensures Decode(CreateAccessToken(data, Some(-1), now), now).Err?
    ensures Decode(CreateAccessToken(map["sub" := ClaimStr(id)], Some(-1), now), now) == Err(Expired)
  {
  }

  /** The token issued at login authenticates its owner for exactly 30 minutes: any time up
      to and including the `exp` instant it yields the user with the id it was issued
      for (the same user, when ids are unique), and one second later it is refused. */
  lemma LoginTokenLifetime(users: seq<UserInDb>, form: LoginForm, verify: (string, string) -> bool, now: int, later: int)
    requires LoginForAccessToken(users, form, verify, now).Ok?
    ensures var user := AuthenticateUser(users, form.username, form.password, verify).value;
      var token := LoginForAccessToken(users, form, verify, now).value.accessToken;
      && (now <= later <= now + 1800 ==>
            GetCurrentUser(token, later, users).Ok? && GetCurrentUser(token, later, users).value.id == user.id)
      && (IdsUnique(users) && now <= later <= now + 1800 ==> GetCurrentUser(token, later, users) == Ok(PublicView(user)))
      && (later > now + 1800 ==> GetCurrentUser(token, later, users) == Err(CredentialsError))
  {
  }

  /** GET /api/v1/users/me, and the guard of every route that depends on
      `get_current_user`: the bearer scheme first, then the token. `parse` reads a
      token string as python-jose would, before any claim is checked. */
  function ReadUsersMe(authorization: Option<string>, parse: string -> Token, now: int, users: seq<UserInDb>)
    : (r: Result<User, HttpError>)
    ensures r.Err? ==> r.error == NotAuthenticated || r.error == CredentialsError
    ensures r == Err(NotAuthenticated) <==> BearerScheme(authorization).Err?
    ensures BearerScheme(authorization).Ok? ==> r == GetCurrentUser(parse(BearerScheme(authorization).value), now, users)
  {
    match BearerScheme(authorization)
    case Err(e) => Err(e)
    case Ok(token) => GetCurrentUser(parse(token), now, users)
  }

  /** The client's `Authorization: Bearer <token>` header with the login token, in any
      case of the scheme, reaches `/users/me` as that token: within its 30 minutes it
      yields the user it was issued for, and afterwards a 401. */
  lemma LoginThenMe(users: seq<UserInDb>, form: LoginForm, verify: (string, string) -> bool, now: int, later: int,
                    scheme: string, text: string, parse: string -> Token)
    requires LoginForAccessToken(users, form, verify, now).Ok?
    requires parse(text) == LoginForAccessToken(users, form, verify, now).value.accessToken
    requires scheme == "Bearer" || scheme == "bearer"
    ensures var user := AuthenticateUser(users, form.username, form.password, verify).value;
      var me := ReadUsersMe(Some(scheme + " " + text), parse, later, users);
      && (now <= later <= now + 1800 ==> me.Ok? && me.value.id == user.id)
      && (later > now + 1800 ==> me == Err(CredentialsError))
  {
    BearerHeaderCarriesToken(scheme, text);
    LoginTokenLifetime(users, form, verify, now, later);
  }

  /** "Bearer " or "bearer " followed by a token passes the scheme check with that token. */
  lemma BearerHeaderCarriesToken(scheme: string, text: string)
    requires scheme == "Bearer" || scheme == "bearer"
    ensures BearerScheme(Some(scheme + " " + text)) == Ok(text)
  {
    FirstSpaceSplit(scheme, text);
    LowerBearer();
    var header := scheme + " " + text;
    assert header != "";
    assert PartitionAtSpace(header) == Split(scheme, text);
  }

  /** An assessment document and response. */
  datatype Assessment = Assessment(
    id: string,
    userId: string,
    createdAt: int,
    patientNotes: Option<string>,
    symptoms: seq<string>,
    videoId: Option<string>,
    audioId: Option<string>,
    riskScore: Option<real>,
    status: string)

  datatype AssessmentCreate = AssessmentCreate(patientNotes: Option<string>, symptoms: seq<string>)

  /** The `assessments` collection after an insert, and the inserted document. */
  datatype Created = Created(store: seq<Assessment>, assessment: Assessment)

  /** POST /api/v1/assessments for the authenticated user. */
  function CreateAssessment(store: seq<Assessment>, body: AssessmentCreate, user: User, newId: string, now: int)
    : (r: Created)
    ensures r.store == store + [r.assessment]
    ensures r.assessment.userId == user.id && r.assessment.status == PendingStatus
    ensures r.assessment.id == newId && r.assessment.createdAt == now
    ensures r.assessment.patientNotes == body.patientNotes && r.assessment.symptoms == body.symptoms
    ensures r.assessment.riskScore.None? && r.assessment.videoId.None? && r.assessment.audioId.None?
  {
    var a := Assessment(newId, user.id, now, body.patientNotes, body.symptoms, None, None, None, PendingStatus);
    Created(store + [a], a)
  }

  function CreatedAt(a: Assessment): int {
    a.createdAt
  }

  function Owner(a: Assessment): string {
    a.userId
  }

  /** GET /api/v1/assessments: the caller's assessments, newest first. */
  function GetAssessments(store: seq<Assessment>, user: User): (r: seq<Assessment>)
    ensures forall i :: 0 <= i < |r| ==> r[i].userId == user.id
    ensures Ordering.SortedDesc(r, CreatedAt)
    ensures forall a :: multiset(r)[a] == if a.userId == user.id then multiset(store)[a] else 0
  {
    Ordering.NewestFirst(store, Ordering.OwnedBy(Owner, user.id), CreatedAt)
  }

  /** A new assessment appears in its owner's list and in no one else's. */
  lemma CreateThenGet(store: seq<Assessment>, body: AssessmentCreate, user: User, other: User, newId: string, now: int)
    requires other.id != user.id
    ensures var Created(store', a) := CreateAssessment(store, body, user, newId, now);
      && a in GetAssessments(store', user)
      && multiset(GetAssessments(store', other)) == multiset(GetAssessments(store, other))
  {
  }
}

=== FILE: ordering.dfy ===
/**
  The two query shapes the stores are asked for: "the records matching a
  filter" and "newest first", i.e. sorted by a timestamp key, descending.
  Both the Prisma `findMany({where, orderBy: desc})` of the sessions route
  and the Mongo `find(...).sort(key, -1)` of the ML service are this
  function; the stores leave the order of equal keys unspecified, so the
  contracts only promise a descending permutation of the matching records.
*/
module Ordering {

  /** Every record ordered before another has a key at least as large. */
  ghost predicate SortedDesc<T>(s: seq<T>, key: T -> int) {
    forall i, j :: 0 <= i < j < |s| ==> key(s[i]) >= key(s[j])
  }

  /** The records of s that satisfy keep, in their original order. */
  function Filter<T(!new)>(s: seq<T>, keep: T -> bool): (r: seq<T>)
    ensures forall x :: multiset(r)[x] == if keep(x) then multiset(s)[x] else 0
    ensures forall i :: 0 <= i < |r| ==> keep(r[i])
  {
    if |s| == 0 then []
    else
      assert s == [s[0]] + s[1..];
      var rest := Filter(s[1..], keep);
      if keep(s[0]) then [s[0]] + rest else rest
  }

  /** The filter "records whose owner is userId", for records whose owner is read by owner. */
  function OwnedBy<T(!new)>(owner: T -> string, userId: string): (keep: T -> bool)
    ensures forall x :: keep(x) <==> owner(x) == userId
  {
    (x: T) => owner(x) == userId
  }

  /** Places x in front of the first record whose key is not larger. */
  function Insert<T>(x: T, s: seq<T>, key: T -> int): (r: seq<T>)
    requires SortedDesc(s, key)
    ensures SortedDesc(r, key)
    ensures multiset(r) == multiset(s) + multiset{x}
    ensures |r| > 0 && (key(r[0]) == key(x) || (|s| > 0 && key(r[0]) == key(s[0])))
  {
    if |s| == 0 then [x]
    else if key(x) >= key(s[0]) then [x] + s
    else
      assert s == [s[0]] + s[1..];
      [s[0]] + Insert(x, s[1..], key)
  }

  /** Insertion sort, largest key first. */
  function SortDesc<T>(s: seq<T>, key: T -> int): (r: seq<T>)
    ensures SortedDesc(r, key)
    ensures multiset(r) == multiset(s)
  {
    if |s| == 0 then []
    else
      assert s == [s[0]] + s[1..];
      Insert(s[0], SortDesc(s[1..], key), key)
  }

  /** The matching records of s, newest first. */
  function NewestFirst<T(!new)>(s: seq<T>, keep: T -> bool, key: T -> int): (r: seq<T>)
    ensures SortedDesc(r, key)
    ensures forall i :: 0 <= i < |r| ==> keep(r[i])
    ensures forall x :: multiset(r)[x] == if keep(x) then multiset(s)[x] else 0
  {
    var matching := Filter(s, keep);
    var r := SortDesc(matching, key);
    assert forall i :: 0 <= i < |r| ==> r[i] in multiset(matching);
    r
  }

  /** Appending a record to the store adds it to the answer exactly when it matches. */
  lemma NewestFirstAppend<T(!new)>(s: seq<T>, x: T, keep: T -> bool, key: T -> int)
    ensures multiset(NewestFirst(s + [x], keep, key))
         == multiset(NewestFirst(s, keep, key)) + (if keep(x) then multiset{x} else multiset{})
  {
  }
}

=== FILE: session_routes.dfy ===
/**
  The Express sessions routes (backend/src/routes/sessions.ts). Both sit
  behind the passport JWT guard, so each handler receives the id of the
  authenticated user. Prisma's `session` table is a sequence of rows; the
  id and `recordedAt` timestamp the database fills in are parameters, and
  `fails` says whether the awaited Prisma call throws.
*/
module SessionRoutes {
  import opened Common
  import opened Json
  import Ordering

  /** The model version every new session is stamped with. */
  const ModelVersion: string := "1.0.0"

  /** A stored session; a payload field that was `undefined` when the row was created
      is None. */
  datatype Session = Session(
    id: string,
    userId: string,
    riskScore: JsValue,
    modelVersion: string,
    videoFeatures: JsValue,
    audioFeatures: JsValue,
    fusionOutput: JsValue,
    recordedAt: int)

  /** The fields of the POST body; each may be `undefined`. */
  datatype SessionBody = SessionBody(videoFeatures: JsValue, audioFeatures: JsValue, fusionOutput: JsValue, riskScore: JsValue)

  /** What the database contributes to a call. */
  datatype Db = Db(newId: string, now: int, fails: bool)

  datatype Reply =
    | SessionList(sessions: seq<Session>)  // 200
    | Created(session: Session)            // 201
    | MissingFields                        // 400 "Missing required fields"
    | ServerError                          // 500 "Server error"

  datatype Handled = Handled(store: seq<Session>, reply: Reply)

  function RecordedAt(s: Session): int {
    s.recordedAt
  }

  function Owner(s: Session): string {
    s.userId
  }

  /** GET /: the caller's sessions, newest first. */
  function ListSessions(store: seq<Session>, userId: string, db: Db): (r: Reply)
    ensures db.fails <==> r == ServerError
    ensures r.SessionList? ==>
      && (forall i :: 0 <= i < |r.sessions| ==> r.sessions[i].userId == userId)
      && Ordering.SortedDesc(r.sessions, RecordedAt)
      && (forall s :: multiset(r.sessions)[s] == if s.userId == userId then multiset(store)[s] else 0)
  {
    if db.fails then ServerError
    else SessionList(Ordering.NewestFirst(store, Ordering.OwnedBy(Owner, userId), RecordedAt))
  }

  /** The POST guard: every feature payload truthy, and a risk score present. A risk
      score of 0 passes; a feature payload of 0, `""`, `false` or `null` does not. */
  function Complete(body: SessionBody): (b: bool)
    ensures b ==> body.videoFeatures.Some? && body.audioFeatures.Some? && body.fusionOutput.Some?
    ensures b ==> body.videoFeatures != Some(JNull) && body.audioFeatures != Some(JNull) && body.fusionOutput != Some(JNull)
    ensures b ==> body.riskScore.Some?
    ensures b ==> body.videoFeatures !in Falsy && body.audioFeatures !in Falsy && body.fusionOutput !in Falsy
    ensures
      Truthy(body.videoFeatures) && Truthy(body.audioFeatures) && Truthy(body.fusionOutput) && body.riskScore.Some?
      ==> b
  {
    Truthy(body.videoFeatures) && Truthy(body.audioFeatures) && Truthy(body.fusionOutput)
    && body.riskScore != None
  }

  /** POST /: validate, then create the session for the authenticated user. */
  function CreateSession(store: seq<Session>, userId: string, body: SessionBody, db: Db): (h: Handled)
    ensures !Complete(body) ==> h == Handled(store, MissingFields)
    ensures h.reply.Created? <==> Complete(body) && !db.fails
    ensures h.reply.Created? ==>
      && h.store == store + [h.reply.session]
      && h.reply.session.userId == userId
      && h.reply.session.modelVersion == ModelVersion
      && h.reply.session.riskScore == body.riskScore
      && h.reply.session.videoFeatures == body.videoFeatures
      && h.reply.session.audioFeatures == body.audioFeatures
      && h.reply.session.fusionOutput == body.fusionOutput
    ensures !h.reply.Created? ==> h.store == store
  {
    if !Complete(body) then Handled(store, MissingFields)
    else if db.fails then Handled(store, ServerError)
    else
      var session := Session(db.newId, userId, body.riskScore, ModelVersion,
                             body.videoFeatures, body.audioFeatures, body.fusionOutput, db.now);
      Handled(store + [session], Created(session))
  }

  /** Only `undefined` rejects a risk score, while a falsy feature payload is rejected. */
  lemma ZeroRiskAccepted(v: Json, a: Json, f: Json)
    requires Truthy(Some(v)) && Truthy(Some(a)) && Truthy(Some(f))
    ensures Complete(SessionBody(Some(v), Some(a), Some(f), Some(JNum(0.0))))
    ensures !Complete(SessionBody(Some(JNum(0.0)), Some(a), Some(f), Some(JNum(0.5))))
    ensures !Complete(SessionBody(Some(v), Some(a), Some(f), None))
  {
  }

  /** A created session is listed for its owner and for nobody else, and every other
      user's list is unchanged. The owner comes from the token, never from the body. */
  lemma CreateThenList(store: seq<Session>, userId: string, other: string, body: SessionBody, db: Db, db': Db)
    requires CreateSession(store, userId, body, db).reply.Created?
    requires !db'.fails && other != userId
    ensures var h := CreateSession(store, userId, body, db);
      && h.reply.session in ListSessions(h.store, userId, db').sessions
      && multiset(ListSessions(h.store, other, db').sessions) == multiset(ListSessions(store, other, db').sessions)
      && |ListSessions(h.store, userId, db').sessions| == |ListSessions(store, userId, db').sessions| + 1
  {
    var h := CreateSession(store, userId, body, db);
    var s := h.reply.session;
    Ordering.NewestFirstAppend(store, s, Ordering.OwnedBy(Owner, userId), RecordedAt);
    Ordering.NewestFirstAppend(store, s, Ordering.OwnedBy(Owner, other), RecordedAt);
    var mine := ListSessions(h.store, userId, db').sessions;
    assert multiset(mine)[s] > 0;
  }
}

=== FILE: upload_route.dfy ===
/**
  The Express upload route (backend/src/routes/upload.ts): after multer has
  written the two uploaded files to disk, the handler sends the video, then
  the audio, then both feature sets to the ML service, stops at the first
  failure, persists a session and deletes the two temporary files.

  The ML service is three oracle functions; the files on disk are a set of
  paths; the session table and the database's contribution are those of
  the sessions routes. `calls` records the requests sent to the ML service,
  in order.
*/
module UploadRoute {
  import opened Common
  import opened Json
  import SessionRoutes

  datatype UploadedFile = UploadedFile(path: string, filename: string, mimetype: string)

  /** `req.files` as multer leaves it: one optional entry per declared field. */
  datatype Files = Files(video: Option<UploadedFile>, audio: Option<UploadedFile>)

  /** One exchange with the ML service: an ok status with its parsed JSON body; a
      non-ok status with its status text; or a `fetch` or `response.json()` that
      throws (a network error, a body that is not JSON) with the error's message. */
  datatype Answer = Answered(body: Json) | Failed(statusText: string) | Threw(message: string)

  datatype MlService = MlService(
    inferVideo: UploadedFile -> Answer,
    inferAudio: UploadedFile -> Answer,
    inferFusion: Json -> Answer)

  datatype Call = InferVideo(file: UploadedFile) | InferAudio(file: UploadedFile) | InferFusion(body: Json)

  /** The part of the server the handler changes: the session table and the upload directory. */
  datatype Server = Server(sessions: seq<SessionRoutes.Session>, disk: set<string>)

  datatype Reply =
    | Completed(session: SessionRoutes.Session)   // 201
    | FilesMissing                                // 400 "Both video and audio files are required"
    | ServerError(error: string)                  // 500 "Server error" with the thrown message

  datatype Outcome = Outcome(server: Server, calls: seq<Call>, reply: Reply)

  /** Position of each ML request in the pipeline. */
  function StageIndex(c: Call): nat {
    match c
    case InferVideo(_) => 0
    case InferAudio(_) => 1
    case InferFusion(_) => 2
  }

  /** `JSON.stringify({v, a})`: a key whose value is `undefined` is left out. */
  function FusionBody(v: JsValue, a: JsValue): (body: Json)
    ensures body.JObj?
    ensures "v" in body.fields <==> v.Some?
    ensures "a" in body.fields <==> a.Some?
    ensures v.Some? ==> body.fields["v"] == v.value
    ensures a.Some? ==> body.fields["a"] == a.value
    ensures body.fields.Keys <= {"v", "a"}
  {
    var withV: map<string, Json> := if v.Some? then map["v" := v.value] else map[];
    JObj(if a.Some? then withV["a" := a.value] else withV)
  }

  const EnoentHead: string := "ENOENT: no such file or directory, unlink '"

  /** The message of the error `fs.unlinkSync` throws for a missing file: Node's
      ENOENT text followed by the path in single quotes. */
  function NoSuchFile(path: string): (m: string)
    ensures |m| == |EnoentHead| + |path| + 1
    ensures m[..|EnoentHead|] == EnoentHead
    ensures m[|EnoentHead|..|m| - 1] == path
    ensures m[|m| - 1] == '\''
  {
    EnoentHead + path + "'"
  }

  /** The message names the missing file: distinct paths give distinct messages. */
  lemma NoSuchFileNamesPath(p: string, q: string)
    requires NoSuchFile(p) == NoSuchFile(q)
    ensures p == q
  {
    var m := NoSuchFile(p);
    assert p == m[|EnoentHead|..|m| - 1];
  }

  /** `fs.unlinkSync`: throws when the file is not there. */
  function Unlink(disk: set<string>, path: string): (r: Option<set<string>>)
    ensures r.Some? <==> path in disk
    ensures r.Some? ==> r.value == disk - {path}
  {
    if path in disk then Some(disk - {path}) else None
  }

  /** The message a failed stage ends the request with: the handler's own error for a
      non-ok status, the thrown error's message otherwise. */
  function StageError(stage: string, answer: Answer): (message: string)
    requires !answer.Answered?
    ensures answer.Failed? ==> message == stage + " inference failed: " + answer.statusText
    ensures answer.Threw? ==> message == answer.message
  {
    if answer.Failed? then stage + " inference failed: " + answer.statusText else answer.message
  }

  /** `after` is `before` with exactly one session appended. */
  predicate AddedOne(before: seq<SessionRoutes.Session>, after: seq<SessionRoutes.Session>) {
    |after| == |before| + 1 && after[..|before|] == before
  }

  /** The facts every exit of the handler keeps: requests go out in pipeline order, a
      session is stored only once all three were sent and then for `userId`, and when
      nothing is stored the files stay and the reply is not a success. */
  ghost predicate Keeps(srv: Server, userId: string, o: Outcome) {
    && |o.calls| <= 3
    && (forall i :: 0 <= i < |o.calls| ==> StageIndex(o.calls[i]) == i)
    && (o.server.sessions == srv.sessions || AddedOne(srv.sessions, o.server.sessions))
    && (AddedOne(srv.sessions, o.server.sessions) ==> |o.calls| == 3 && o.server.sessions[|srv.sessions|].userId == userId)
    && (o.server.sessions == srv.sessions ==> o.server.disk == srv.disk && !o.reply.Completed?)
    && (o.reply.Completed? ==> o.server.sessions == srv.sessions + [o.reply.session])
  }

  /** POST /: the handler body for the authenticated user `userId`. A request that was
      not multipart leaves `req.files` undefined (None). */
  function Upload(srv: Server, userId: string, files: Option<Files>, ml: MlService, db: SessionRoutes.Db): (o: Outcome)
    ensures files.None? ==> o == Outcome(srv, [], ServerError(Message(PropertyOfNull("undefined", "video"))))
    ensures files.Some? && (files.value.video.None? || files.value.audio.None?) ==> o == Outcome(srv, [], FilesMissing)
    ensures Keeps(srv, userId, o)
  {
    match files
    case None => Outcome(srv, [], ServerError(Message(PropertyOfNull("undefined", "video"))))
    case Some(f) =>
      if f.video.None? || f.audio.None? then Outcome(srv, [], FilesMissing)
      else Infer(srv, userId, f.video.value, f.audio.value, ml, db)
  }

  /** The video and audio stages, in that order, each stopping the request when it fails. */
  function Infer(srv: Server, userId: string, video: UploadedFile, audio: UploadedFile, ml: MlService,
                 db: SessionRoutes.Db): (o: Outcome)
    ensures |o.calls| >= 1 && o.calls[0] == InferVideo(video)
    ensures |o.calls| >= 2 ==> o.calls[1] == InferAudio(audio)
    ensures Keeps(srv, userId, o)
  {
    var videoAnswer := ml.inferVideo(video);
    if !videoAnswer.Answered? then Outcome(srv, [InferVideo(video)], ServerError(StageError("Video", videoAnswer)))
    else
      var audioAnswer := ml.inferAudio(audio);
      if !audioAnswer.Answered? then
        Outcome(srv, [InferVideo(video), InferAudio(audio)], ServerError(StageError("Audio", audioAnswer)))
      else Fuse(srv, userId, video, audio, videoAnswer.body, audioAnswer.body, ml, db)
  }

  /** The fusion stage: read the two feature members, send them, store the result. */
  function Fuse(srv: Server, userId: string, video: UploadedFile, audio: UploadedFile,
                videoFeatures: Json, audioFeatures: Json, ml: MlService, db: SessionRoutes.Db): (o: Outcome)
    ensures |o.calls| >= 2 && o.calls[..2] == [InferVideo(video), InferAudio(audio)]
    ensures |o.calls| == 3 ==> o.calls[2].InferFusion?
    ensures Keeps(srv, userId, o)
  {
    var sent := [InferVideo(video), InferAudio(audio)];
    var v := Member(Some(videoFeatures), "videoFeatures");
    var a := Member(Some(audioFeatures), "audioFeatures");
    if v.Err? then Outcome(srv, sent, ServerError(Message(v.error)))
    else if a.Err? then Outcome(srv, sent, ServerError(Message(a.error)))
    else
      var body := FusionBody(v.value, a.value);
      var sent := sent + [InferFusion(body)];
      var fusionAnswer := ml.inferFusion(body);
      if !fusionAnswer.Answered? then Outcome(srv, sent, ServerError(StageError("Fusion", fusionAnswer)))
      else Persist(srv, userId, video, audio, v.value, a.value, fusionAnswer.body, db, sent)
  }

  /** Store the session, then delete the two temporary files. */
  function Persist(srv: Server, userId: string, video: UploadedFile, audio: UploadedFile,
                   v: JsValue, a: JsValue, fusionResult: Json, db: SessionRoutes.Db, sent: seq<Call>): (o: Outcome)
    ensures o.calls == sent
    ensures o.reply.Completed? ==>
      && o.server.sessions == srv.sessions + [o.reply.session]
      && o.server.disk == srv.disk - {video.path, audio.path}
    ensures o.server.sessions == srv.sessions || AddedOne(srv.sessions, o.server.sessions)
    ensures AddedOne(srv.sessions, o.server.sessions) ==> o.server.sessions[|srv.sessions|].userId == userId
    ensures o.server.sessions == srv.sessions ==> o.server.disk == srv.disk && o.reply.ServerError?
  {
    if fusionResult == JNull then Outcome(srv, sent, ServerError(Message(PropertyOfNull("null", "riskScore"))))
    else if db.fails then Outcome(srv, sent, ServerError("Database error"))
    else
      var session := SessionRoutes.Session(
        db.newId, userId,
        Member(Some(fusionResult), "riskScore").value,
        SessionRoutes.ModelVersion,
        v, a,
        Member(Some(fusionResult), "fusionOutput").value,
        db.now);
      var stored := srv.(sessions := srv.sessions + [session]);
      match Unlink(stored.disk, video.path)
      case None => Outcome(stored, sent, ServerError(NoSuchFile(video.path)))
      case Some(disk) =>
        match Unlink(disk, audio.path)
        case None => Outcome(stored.(disk := disk), sent, ServerError(NoSuchFile(audio.path)))
        case Some(disk') => Outcome(stored.(disk := disk'), sent, Completed(session))
  }

  /** The first failing stage ends the request with a 500: no later request is sent, no
      session is stored and the uploaded files stay on disk. A non-ok status is
      reported with the stage's name and status text, a thrown error with its own
      message. */
  lemma StageFailureAborts(srv: Server, userId: string, f: Files, ml: MlService, db: SessionRoutes.Db)
    requires f.video.Some? && f.audio.Some?
    ensures var o := Upload(srv, userId, Some(f), ml, db);
      var video, audio := f.video.value, f.audio.value;
      && (!ml.inferVideo(video).Answered? ==>
            o == Outcome(srv, [InferVideo(video)], ServerError(StageError("Video", ml.inferVideo(video)))))
      && (ml.inferVideo(video).Answered? && !ml.inferAudio(audio).Answered? ==>
            o == Outcome(srv, [InferVideo(video), InferAudio(audio)], ServerError(StageError("Audio", ml.inferAudio(audio)))))
      && (|o.calls| == 3 && !ml.inferFusion(o.calls[2].body).Answered? ==>
            o.server == srv && o.reply == ServerError(StageError("Fusion", ml.inferFusion(o.calls[2].body))))
  {
  }

  /** The fusion request carries the `videoFeatures` member of the video answer as `v`
      and the `audioFeatures` member of the audio answer as `a`. */
  lemma FusionRequestCarriesFeatures(srv: Server, userId: string, f: Files, ml: MlService, db: SessionRoutes.Db,
                                     videoAnswer: map<string, Json>, audioAnswer: map<string, Json>)
    requires f.video.Some? && f.audio.Some?
    requires ml.inferVideo(f.video.value) == Answered(JObj(videoAnswer))
    requires ml.inferAudio(f.audio.value) == Answered(JObj(audioAnswer))
    ensures var o := Upload(srv, userId, Some(f), ml, db);
      && |o.calls| == 3
      && o.calls[2] == InferFusion(FusionBody(Lookup(videoAnswer, "videoFeatures"), Lookup(audioAnswer, "audioFeatures")))
  {
  }

  /** The success path: the stored session belongs to the authenticated user, takes its
      risk score and fusion output from the fusion answer and its features from the
      first two answers, is stamped with model version 1.0.0, is returned with 201,
      and both temporary files are deleted. */
  lemma SuccessfulUpload(srv: Server, userId: string, video: UploadedFile, audio: UploadedFile, ml: MlService,
                         db: SessionRoutes.Db, videoAnswer: map<string, Json>, audioAnswer: map<string, Json>,
                         fusionAnswer: map<string, Json>)
    requires video.path != audio.path && video.path in srv.disk && audio.path in srv.disk
    requires ml.inferVideo(video) == Answered(JObj(videoAnswer))
    requires ml.inferAudio(audio) == Answered(JObj(audioAnswer))
    requires ml.inferFusion(FusionBody(Lookup(videoAnswer, "videoFeatures"), Lookup(audioAnswer, "audioFeatures")))
          == Answered(JObj(fusionAnswer))
    requires !db.fails
    ensures var session := SessionRoutes.Session(db.newId, userId, Lookup(fusionAnswer, "riskScore"),
                                                 SessionRoutes.ModelVersion,
                                                 Lookup(videoAnswer, "videoFeatures"), Lookup(audioAnswer, "audioFeatures"),
                                                 Lookup(fusionAnswer, "fusionOutput"), db.now);
      Upload(srv, userId, Some(Files(Some(video), Some(audio))), ml, db).server
        == Server(srv.sessions + [session], srv.disk - {video.path, audio.path})
      && Upload(srv, userId, Some(Files(Some(video), Some(audio))), ml, db).reply == Completed(session)
  {
  }

  /** Deleting the temporary files happens after the session is stored: when the video
      file is already gone the session stays stored, yet the caller gets a 500. */
  lemma CleanupFailureAfterPersist(srv: Server, userId: string, video: UploadedFile, audio: UploadedFile, ml: MlService,
                                   db: SessionRoutes.Db, videoAnswer: map<string, Json>, audioAnswer: map<string, Json>,
                                   fusionAnswer: map<string, Json>)
    requires video.path !in srv.disk
    requires ml.inferVideo(video) == Answered(JObj(videoAnswer))
    requires ml.inferAudio(audio) == Answered(JObj(audioAnswer))
    requires ml.inferFusion(FusionBody(Lookup(videoAnswer, "videoFeatures"), Lookup(audioAnswer, "audioFeatures")))
          == Answered(JObj(fusionAnswer))
    requires !db.fails
    ensures var o := Upload(srv, userId, Some(Files(Some(video), Some(audio))), ml, db);
      AddedOne(srv.sessions, o.server.sessions) && o.reply == ServerError(NoSuchFile(video.path)) && o.server.disk == srv.disk
  {
  }
}
